=== FILE: README.md ===
# Explore-with-me: participation-request admission and event lifecycle

This project is a Dafny model of the event-hosting service "explore with me".
It models the service's business core:

- **Request admission.** A user asks to join a published event. The request is confirmed at once or queued as PENDING. Each event has a participant limit and a running ledger of confirmations (`confirmedRequests`). The event's initiator bulk-confirms or bulk-rejects queued requests. Once the limit is reached, the rest of that batch is cut over.
- **Event lifecycle.** A new event starts PENDING. The administrator publishes or rejects it, with a one-hour date lead. The initiator sends it back to review or cancels it, with a two-hour date lead. A PUBLISHED event can no longer change. The two event searches check their parameters before querying.
- **The mappers.** Each mapper decides what an update keeps: a null field keeps the old value, and a missing flag gets a default. These rules decide the limit and moderation flag that admission reads.
- **The thin services.** Categories, places and compilations are kept in keyed stores.

Every repository becomes one map inside an immutable `Domain.Db` record. Entities refer to each other by id, as the database rows do: an event holds the id of its category and a compilation the ids of its events, and the views read the referenced entities from the stores when they are rendered. Every operation is a pure function from a store to a `Result`: either the new store with the operation's answer, or the exception the source throws, as an `Error`. Times are abstract integers in seconds, and the clock reading `now` is a parameter. An id the database assigns on save comes in as a `freshId` parameter that the store does not yet hold. The bulk update's fetch order is a parameter too. It holds distinct ids of stored requests (`RequestService.Fetched`).

Modules follow the source files:
- `Optional` and `Domain` hold shared records.
- `CategoryMapper`, `EventMapper`, `RequestMapper`, `PlaceMapper` and `CompilationMapper` model the mappers.
- `RequestService`, `EventService`, `CategoryService`, `PlaceService` and `CompilationService` model the services.
- `RequestProperties` and `EventProperties` hold the properties that relate several operations.

## Where the code departs from the intended design

The model follows the code. In these places the code behaves differently from the intended design:

- **Cutover status.** The bulk update's cutover sets the remaining requests to CANCELED, not REJECTED (`RequestProperties.CutoverExample`). So they appear in neither result list.
- **Duplicate check.** The check counts a prior request of any status, CANCELED included. So a user who canceled can never apply to that event again (`RequestProperties.CancelThenCreateFails`).
- **Error types.** The request errors are the source's own. A duplicate request, an unpublished event and a full event all fail with one `InvalidParticipationRequest`. A limit reached at bulk update fails with `InvalidEventStateOrDate`.
- **Cancel ownership.** Cancel only checks that the caller has some request, for any event. It does not check that the caller owns the request (`RequestProperties.CancelIgnoresOwnership`).
- **Cancel ledger.** Cancel does not decrement the ledger (`RequestProperties.CancelConfirmedKeepsLedger`).
- **Bulk-update checks.** The bulk update checks neither that the caller is the event's initiator nor that the listed requests belong to that event.
- **No limit re-check without moderation.** An event without moderation but with a limit gets no cutover at bulk update. Its ledger can pass the limit (`RequestProperties.UnmoderatedBulkOvershoots`). Such an event's own requests are confirmed at creation, so this is reachable only through ids of another event's pending requests, which the bulk update does not check.
- **Event updates reset fields.** Both event updates rebuild the event with a builder. The builder never sets the ledger, the view count or the two timestamps. The model gives those fields their default values, zero and null. So every successful event update stores a zero ledger and no publication time (`EventProperties.UpdateResetsLedger`). This depends on the `Event` entity having no builder defaults. `Event.java` is not part of this model.

## Model

| member | source | states |
|---|---|---|
| CategoryMapper.ToCategory | ewm-service/src/main/java/ru/practicum/category/CategoryMapper.java:12-17 | the category takes the caller's id and the DTO's name |
| CategoryMapper.RenameCategory | ewm-service/src/main/java/ru/practicum/category/CategoryMapper.java:20-25 | the renamed category keeps its stored id and takes the DTO's name as given, null included |
| CategoryMapper.ToCategoryDto | ewm-service/src/main/java/ru/practicum/category/CategoryMapper.java:42-47 | the DTO carries the category's id and name |
| CategoryService.UpdateCategory | ewm-service/src/main/java/ru/practicum/category/CategoryServiceImpl.java:30-36 | NotFound exactly when the id is unknown; otherwise only that category changes: its stored id, with the DTO's name; the events that use it keep referring to it, so they show the new name (see EventProperties.RenameReachesEventViews) |
| CategoryService.DeleteCategory | ewm-service/src/main/java/ru/practicum/category/CategoryServiceImpl.java:40-49 | NotFound for an unknown id; refused while any event references the category; otherwise exactly that key leaves the store and nothing else changes |
| CategoryService.GetCategoryById | ewm-service/src/main/java/ru/practicum/category/CategoryServiceImpl.java:60-64 | succeeds exactly for a stored id; NotFound otherwise |
| CategoryService.GetAfterUpdateCategory | ewm-service/src/main/java/ru/practicum/category/CategoryServiceImpl.java:30-36 | reading back after an update returns what the update answered: the stored id with the new name |
| CategoryService.UpdateCategoryNullName | ewm-service/src/main/java/ru/practicum/category/CategoryMapper.java:20-25 | a null name in an update is stored as null, because the category update does not keep old values |
| CategoryService.GetAfterDeleteCategory | ewm-service/src/main/java/ru/practicum/category/CategoryServiceImpl.java:48 | after a delete the category reads NotFound while every other category reads as before |
| CategoryService.UsedCategoryIsKept | ewm-service/src/main/java/ru/practicum/category/CategoryServiceImpl.java:44-46 | an event referencing the category makes its deletion fail with InvalidEventStateOrDate |
| EventMapper.ToNewEvent | ewm-service/src/main/java/ru/practicum/event/EventMapper.java:33-45 | a null limit becomes 0, a null paid flag false, a null moderation flag true; the other fields are copied and the category is referenced by the resolved id; no id, no initiator, zero ledger |
| EventMapper.MergePatch | ewm-service/src/main/java/ru/practicum/event/EventMapper.java:57-79 | for each of the nine merged fields a null keeps the stored value and a non-null one replaces it; id and state always come from the stored event; the initiator is the stored one unless that is null; the same for the admin overload at lines 91-113 |
| EventMapper.MergeEmptyPatchKeepsEvent | ewm-service/src/main/java/ru/practicum/event/EventMapper.java:57-79 | merging an all-null update leaves every merged field as stored; the event differs only in the fields the builder resets |
| EventMapper.MergeIdempotent | ewm-service/src/main/java/ru/practicum/event/EventMapper.java:91-113 | merging the same update twice equals merging it once |
| EventMapper.ToEventFullDto | ewm-service/src/main/java/ru/practicum/event/EventMapper.java:121-140 | ledger, limit, moderation flag, state, id, initiator and timestamps are copied unchanged; the category is the referenced one as the category store holds it now |
| EventMapper.RenderCategory | ewm-service/src/main/java/ru/practicum/event/EventMapper.java:121-140 | a category view exactly when the event references a stored category, and then that category's current id and name |
| EventMapper.ToEventShortDto | ewm-service/src/main/java/ru/practicum/event/EventMapper.java:148-161 | ledger, id, initiator and paid flag are copied unchanged; no category without a reference, otherwise the referenced one as stored now |
| EventMapper.ShortViewAgreesWithFullView | ewm-service/src/main/java/ru/practicum/event/EventMapper.java:121-161 | every field the short and full views share holds the same value in both |
| RequestMapper.ToRequest | ewm-service/src/main/java/ru/practicum/request/RequestMapper.java:22-32 | the request carries the DTO's status, the given user, event and creation time, and no id |
| RequestMapper.ToRequestDto | ewm-service/src/main/java/ru/practicum/request/RequestMapper.java:52-60 | id and status copied; event and requester rendered by id |
| RequestMapper.RequestRoundTrip | ewm-service/src/main/java/ru/practicum/request/RequestMapper.java:22-60 | building a request from an id-less DTO and rendering it returns the DTO's status, with the given user, event and time filled in |
| RequestMapper.ToRequestDtoInjective | ewm-service/src/main/java/ru/practicum/request/RequestMapper.java:52-60 | two requests with the same DTO are the same request |
| RequestMapper.ToRequestDtos | ewm-service/src/main/java/ru/practicum/request/RequestMapper.java:40-44 | the list conversion keeps the length and maps position by position |
| RequestMapper.ToRequestDtosAppend | ewm-service/src/main/java/ru/practicum/request/RequestMapper.java:40-44 | converting a concatenation is concatenating the conversions |
| PlaceMapper.ToPlace | ewm-service/src/main/java/ru/practicum/place/PlaceMapper.java:18-25 | a new place has no id and the four fields as given |
| PlaceMapper.MergePlace | ewm-service/src/main/java/ru/practicum/place/PlaceMapper.java:34-42 | a null DTO field keeps the stored name, lat, lon or radius; a non-null one replaces it; the id is the stored one |
| PlaceMapper.ToPlaceWithId | ewm-service/src/main/java/ru/practicum/place/PlaceMapper.java:51-59 | the place takes the given id and the DTO's fields verbatim, nulls included |
| PlaceMapper.ToPlaceDto | ewm-service/src/main/java/ru/practicum/place/PlaceMapper.java:67-75 | the DTO carries the place's five fields |
| PlaceMapper.PlaceRoundTrip | ewm-service/src/main/java/ru/practicum/place/PlaceMapper.java:51-75 | building a place under an id and rendering it gives the DTO with its id replaced by that id |
| PlaceMapper.PlaceDtoRoundTrip | ewm-service/src/main/java/ru/practicum/place/PlaceMapper.java:51-75 | rendering a stored place and rebuilding it under its own id gives the place back |
| PlaceMapper.MergeEmptyPlaceDto | ewm-service/src/main/java/ru/practicum/place/PlaceMapper.java:34-42 | merging an all-null DTO changes nothing |
| PlaceMapper.MergeFullPlaceDto | ewm-service/src/main/java/ru/practicum/place/PlaceMapper.java:34-42 | with every field present the merge equals the verbatim build under the stored id |
| PlaceMapper.MergePlaceIdempotent | ewm-service/src/main/java/ru/practicum/place/PlaceMapper.java:34-42 | merging the same DTO twice equals merging it once |
| PlaceService.CreatePlace | ewm-service/src/main/java/ru/practicum/place/PlaceServiceImpl.java:28-31 | the new place is stored under the assigned id, only that key is added, and the answer shows the DTO's four fields with that id |
| PlaceService.UpdatePlace | ewm-service/src/main/java/ru/practicum/place/PlaceServiceImpl.java:43-48 | NotFound exactly when the id is unknown; otherwise the null-keeping merge replaces that place and nothing else |
| PlaceService.DeletePlace | ewm-service/src/main/java/ru/practicum/place/PlaceServiceImpl.java:72-78 | NotFound exactly when the id is unknown; otherwise exactly that key leaves the store |
| PlaceService.GetPlaceById | ewm-service/src/main/java/ru/practicum/place/PlaceServiceImpl.java:89-93 | succeeds exactly for a stored id, rendering that place; NotFound otherwise |
| PlaceService.CreateThenReadAndDeletePlace | ewm-service/src/main/java/ru/practicum/place/PlaceServiceImpl.java:28-93 | reading right after creating gives the view the creation answered; deleting then restores the store, after which reading, updating and deleting all give NotFound |
| PlaceService.GetAfterUpdatePlace | ewm-service/src/main/java/ru/practicum/place/PlaceServiceImpl.java:43-48 | reading back after an update returns what the update answered |
| PlaceService.UpdatePlaceWithNothing | ewm-service/src/main/java/ru/practicum/place/PlaceServiceImpl.java:43-48 | an update with an all-null DTO leaves the whole store unchanged |
| PlaceService.GetAfterDeletePlace | ewm-service/src/main/java/ru/practicum/place/PlaceServiceImpl.java:72-78 | after a delete the place reads NotFound while every other place reads as before |
| CompilationMapper.ToCompilation | ewm-service/src/main/java/ru/practicum/compilation/CompilationMapper.java:24-29 | the title is copied; the compilation is pinned only when the DTO says true; no id, no events |
| CompilationMapper.MergeCompilation | ewm-service/src/main/java/ru/practicum/compilation/CompilationMapper.java:38-44 | null title or pinned keep the stored values, non-null ones replace them; the result has no id and no events |
| CompilationMapper.MergeCompilationLaws | ewm-service/src/main/java/ru/practicum/compilation/CompilationMapper.java:38-44 | merging an all-null request keeps title and pinned flag; merging the same request twice is merging it once |
| CompilationMapper.ToCompilationDto | ewm-service/src/main/java/ru/practicum/compilation/CompilationMapper.java:52-65 | id, title and pinned copied; null or empty events give an empty set, otherwise exactly the short views of the referenced events, read from the event and category stores as they are now |
| CompilationService.AddEvents | ewm-service/src/main/java/ru/practicum/compilation/CompilationServiceImpl.java:86-94 | the event set is always replaced; null or empty ids give the empty set; otherwise it holds exactly the given ids the event store holds; nothing else changes |
| CompilationService.AddEventsReplaces | ewm-service/src/main/java/ru/practicum/compilation/CompilationServiceImpl.java:86-94 | attaching events twice leaves only the second attachment, so attaching is idempotent |
| CompilationService.CreateCompilation | ewm-service/src/main/java/ru/practicum/compilation/CompilationServiceImpl.java:29-33 | only the assigned key is added; the stored compilation has the DTO's title, pinned only when requested, and the stored events with the given ids |
| CompilationService.UpdateCompilation | ewm-service/src/main/java/ru/practicum/compilation/CompilationServiceImpl.java:37-44 | NotFound exactly when the id is unknown; otherwise id, title and pinned are kept, the events are replaced by those with the given ids (none when no ids are given), and nothing else changes |
| CompilationService.DeleteCompilation | ewm-service/src/main/java/ru/practicum/compilation/CompilationServiceImpl.java:48-55 | NotFound exactly when the id is unknown; otherwise that key leaves the store and nothing else changes, provided detaching the events succeeds (see Left out) |
| CompilationService.GetCompilationById | ewm-service/src/main/java/ru/practicum/compilation/CompilationServiceImpl.java:77-82 | succeeds exactly for a stored id, with that compilation's full view: its id, title and pinned flag and the short views of its attached events as the stores hold them now; NotFound otherwise |
| CompilationService.CreateThenReadAndDelete | ewm-service/src/main/java/ru/practicum/compilation/CompilationServiceImpl.java:29-82 | reading right after creating gives the view the creation answered; deleting then restores the store, after which reading, updating and deleting all give NotFound |
| CompilationService.ViewFollowsEvents | ewm-service/src/main/java/ru/practicum/compilation/CompilationMapper.java:52-65 | after an attached event is replaced in the store, reading the compilation shows the new event |
| CompilationService.UpdateIgnoresTitleAndPin | ewm-service/src/main/java/ru/practicum/compilation/CompilationServiceImpl.java:41-42 | a new title sent in an update is what the merge computes but not what is stored, since the merge's result is discarded; an update without ids clears the events |
| CompilationService.UpdateCompilationIdempotent | ewm-service/src/main/java/ru/practicum/compilation/CompilationServiceImpl.java:37-44 | applying the same update twice gives the same store and answer as applying it once |
| RequestService.CreateRequest | ewm-service/src/main/java/ru/practicum/request/RequestServiceImpl.java:50-80 | the failures in source order: initiator, then unknown event, then limit reached, unpublished or any prior request, then unknown user; success exactly when none applies; the request is CONFIRMED and the ledger grows by one exactly when moderation is off or the limit is 0, otherwise PENDING with the ledger untouched; only the new request and that event change |
| RequestService.CancelRequest | ewm-service/src/main/java/ru/practicum/request/RequestServiceImpl.java:91-102 | NotFound when the request is unknown or the caller has no request at all; otherwise only that request changes, to CANCELED, and no event changes |
| RequestService.PendingOf | ewm-service/src/main/java/ru/practicum/request/RequestServiceImpl.java:155-161 | exactly the fetched ids whose request is PENDING, in fetch order, still distinct |
| RequestService.ApplyBatch | ewm-service/src/main/java/ru/practicum/request/RequestServiceImpl.java:163-176 | the request at pending position i becomes CANCELED after the cutover, REJECTED for a non-CONFIRMED target, CONFIRMED while auto-confirming or while i is below the remaining room, CANCELED afterwards; the ledger grows by exactly the confirmations; other requests stay as they were |
| RequestService.WithStatus | ewm-service/src/main/java/ru/practicum/request/RequestServiceImpl.java:180-183 | exactly the DTOs of the event's requests in the given status: each such request appears, and each DTO listed renders one of them |
| RequestProperties.WithStatusIsListConversion | ewm-service/src/main/java/ru/practicum/request/RequestServiceImpl.java:180-183 | whatever order the repository returns the event's requests in, converting that list with the list mapper gives exactly the re-read's DTOs |
| RequestService.Settle | ewm-service/src/main/java/ru/practicum/request/RequestServiceImpl.java:163-178 | only that event's ledger and the pending fetched requests change; the ledger grows by the number of requests newly CONFIRMED |
| RequestService.UpdateEventRequests | ewm-service/src/main/java/ru/practicum/request/RequestServiceImpl.java:139-189 | NotFound for an unknown event; InvalidEventStateOrDate when the limit is already reached; a null id list is refused by the repository; a null status is dereferenced at the first fetched PENDING request, and with none the store is unchanged; otherwise the settled store; on success the full re-read of the event's CONFIRMED and REJECTED requests |
| RequestProperties.CreatePreservesOnePerPair | ewm-service/src/main/java/ru/practicum/request/RequestServiceImpl.java:58-63 | creation keeps every user to at most one request per event |
| RequestProperties.CreatePreservesCapacity | ewm-service/src/main/java/ru/practicum/request/RequestServiceImpl.java:58-72 | if no event is over its nonzero limit before a creation, none is after it |
| RequestProperties.UnlimitedEventAutoConfirms | ewm-service/src/main/java/ru/practicum/request/RequestServiceImpl.java:67-72 | an admissible request to an event with limit 0 succeeds as CONFIRMED and bumps the ledger by one |
| RequestProperties.ModeratedEventQueues | ewm-service/src/main/java/ru/practicum/request/RequestServiceImpl.java:67-72 | on a moderated limited event a created request is PENDING and the event is untouched |
| RequestProperties.UnmoderatedEventFillsThenRefuses | ewm-service/src/main/java/ru/practicum/request/RequestServiceImpl.java:58-72 | without moderation a limited event confirms while it has room, never past the limit, and refuses once full |
| RequestProperties.NewEventModerationDefaults | ewm-service/src/main/java/ru/practicum/event/EventMapper.java:39-41 | a new event without a limit auto-confirms; one with a limit and no moderation flag queues requests |
| RequestProperties.NewEventOpensOnPublication | ewm-service/src/main/java/ru/practicum/request/RequestServiceImpl.java:58-62 | a new event refuses every participation request until the administrator publishes it; once published it admits any other registered user who has not asked before |
| RequestProperties.LimitOneConfirmsAtMostOne | ewm-service/src/main/java/ru/practicum/request/RequestServiceImpl.java:58-72 | with limit 1, two successive creations are never both CONFIRMED |
| RequestProperties.CancelThenCreateFails | ewm-service/src/main/java/ru/practicum/request/RequestServiceImpl.java:60 | after canceling their request, the user's new request for the same event fails |
| RequestProperties.CancelIgnoresOwnership | ewm-service/src/main/java/ru/practicum/request/RequestServiceImpl.java:95-99 | any user holding some request can cancel another user's request |
| RequestProperties.CancelConfirmedKeepsLedger | ewm-service/src/main/java/ru/practicum/request/RequestServiceImpl.java:99-101 | canceling a CONFIRMED request leaves the ledger unchanged while the event's CONFIRMED requests drop by one |
| RequestProperties.BulkUpdateTouchesOnlyPending | ewm-service/src/main/java/ru/practicum/request/RequestServiceImpl.java:155-178 | requests not fetched or not PENDING are unchanged; every fetched PENDING request leaves PENDING and changes nothing but its status |
| RequestProperties.BulkUpdateRespectsLimit | ewm-service/src/main/java/ru/practicum/request/RequestServiceImpl.java:147-172 | on an event that does not auto-confirm, the ledger after a bulk update is at most the limit |
| RequestProperties.BulkUpdateCountsConfirmations | ewm-service/src/main/java/ru/practicum/request/RequestServiceImpl.java:166-169 | the ledger grows by exactly the number of fetched requests that went from PENDING to CONFIRMED |
| RequestProperties.BulkUpdateCutover | ewm-service/src/main/java/ru/practicum/request/RequestServiceImpl.java:163-172 | on a moderated limited event with target CONFIRMED, the pending request at position i is CONFIRMED if i is below the remaining room and CANCELED otherwise |
| RequestProperties.BulkUpdateRejects | ewm-service/src/main/java/ru/practicum/request/RequestServiceImpl.java:173-175 | a target other than CONFIRMED rejects every fetched PENDING request and leaves the events untouched |
| RequestProperties.BulkUpdateAutoConfirmsAll | ewm-service/src/main/java/ru/practicum/request/RequestServiceImpl.java:151-153 | on an auto-confirming event, target CONFIRMED confirms every fetched PENDING request |
| RequestProperties.BulkUpdateResultPartition | ewm-service/src/main/java/ru/practicum/request/RequestServiceImpl.java:180-188 | the two result lists are disjoint and omit every CANCELED request; the CONFIRMED list renders exactly the event's CONFIRMED requests and the REJECTED list exactly its REJECTED ones |
| RequestProperties.BulkUpdateNullStatus | ewm-service/src/main/java/ru/practicum/request/RequestServiceImpl.java:157-167 | with a null status the bulk update fails exactly when a fetched request is PENDING, with a null dereference, and otherwise succeeds with the store unchanged |
| RequestProperties.PendingOfNone | ewm-service/src/main/java/ru/practicum/request/RequestServiceImpl.java:155-161 | if no fetched request is PENDING, the filtered list is empty |
| RequestProperties.SettleNothingPending | ewm-service/src/main/java/ru/practicum/request/RequestServiceImpl.java:163-178 | with nothing pending the bulk update leaves the store as it was |
| RequestProperties.BulkUpdateTwiceIsOnce | ewm-service/src/main/java/ru/practicum/request/RequestServiceImpl.java:139-189 | repeating a bulk update with the same ids and target changes nothing further |
| RequestProperties.CutoverExample | ewm-service/src/main/java/ru/practicum/request/RequestServiceImpl.java:163-176 | limit 2, moderated, pending A, B, C: A and B are CONFIRMED, C is CANCELED, ledger 2 |
| RequestProperties.UnmoderatedBulkOvershoots | ewm-service/src/main/java/ru/practicum/request/RequestServiceImpl.java:151-172 | an unmoderated event with limit 1 and three pending requests ends with ledger 3 |
| EventService.ResolveCategory | ewm-service/src/main/java/ru/practicum/event/EventServiceImpl.java:221 | succeeds exactly for a stored category, giving the requested id and the stored name; NotFound otherwise |
| EventService.ResolvePatchCategory | ewm-service/src/main/java/ru/practicum/event/EventServiceImpl.java:292-296 | no category reference when the update names none; otherwise the named id once the lookup finds it, NotFound for an unknown id |
| EventService.CreateEvent | ewm-service/src/main/java/ru/practicum/event/EventServiceImpl.java:212-234 | InvalidPathVariable when the date is less than two hours ahead, then NotFound for an unknown user or category; success exactly otherwise; the new event is PENDING, created now, owned by the caller, with zero ledger and the new-event defaults; only that key is added |
| EventService.AdminTransition | ewm-service/src/main/java/ru/practicum/event/EventServiceImpl.java:129-140 | publish gives PUBLISHED, reject gives CANCELED, no action keeps the state |
| EventService.UserTransition | ewm-service/src/main/java/ru/practicum/event/EventServiceImpl.java:304-311 | send-to-review gives PENDING, cancel-review gives CANCELED, no action keeps the state |
| EventService.UpdateEventByAdmin | ewm-service/src/main/java/ru/practicum/event/EventServiceImpl.java:116-157 | failures in source order: NotFound, InvalidPathVariable for a date under one hour ahead, for a non-PENDING event InvalidEventStateOrDate (or a null dereference when no action is given), NotFound for an unknown category; success exactly otherwise; the stored event has the action's state and the merged fields |
| EventService.UpdateUserEvent | ewm-service/src/main/java/ru/practicum/event/EventServiceImpl.java:277-315 | failures in source order: NotFound, InvalidPathVariable for a date under two hours ahead, InvalidEventStateOrDate for a PUBLISHED event, NotFound for an unknown user or category; success exactly otherwise; the stored event has the action's state and the merged fields |
| EventService.FoldCase | ewm-service/src/main/java/ru/practicum/event/EventServiceImpl.java:85-87 | lower-case ASCII letters map to upper case; every result is an upper-case ASCII letter or the character itself |
| EventService.ParseSort | ewm-service/src/main/java/ru/practicum/event/EventServiceImpl.java:84-91 | EVENT_DATE exactly when the parameter equals "EVENT_DATE" ignoring case, VIEWS likewise, InvalidPathVariable otherwise |
| EventService.AnyNonPositiveIff | ewm-service/src/main/java/ru/practicum/event/EventServiceImpl.java:96 | the element-by-element any-match finds a non-positive id exactly when the array holds one |
| EventService.CheckIds | ewm-service/src/main/java/ru/practicum/event/EventServiceImpl.java:94-99 | an id array passes exactly when it is null or all its ids are positive |
| EventService.CheckPublicSearch | ewm-service/src/main/java/ru/practicum/event/EventServiceImpl.java:84-99 | succeeds with the parsed sort exactly when the sort is valid and every category id is positive |
| EventService.CheckAdminSearch | ewm-service/src/main/java/ru/practicum/event/EventServiceImpl.java:182-194 | succeeds exactly when every category id and every user id is positive |
| EventProperties.AdminUpdateIsLegalStep | ewm-service/src/main/java/ru/practicum/event/EventServiceImpl.java:125-140 | every successful administrator update is a step of the lifecycle relation: nothing leaves PUBLISHED, PENDING goes anywhere, CANCELED never goes to PUBLISHED |
| EventProperties.UserUpdateIsLegalStep | ewm-service/src/main/java/ru/practicum/event/EventServiceImpl.java:286-311 | every successful initiator update is a step of the same relation |
| EventProperties.LegalStepsAreReachable | ewm-service/src/main/java/ru/practicum/event/EventServiceImpl.java:129-140 | conversely, every step of the relation is taken by some administrator or initiator update |
| EventProperties.PublishedIsTerminal | ewm-service/src/main/java/ru/practicum/event/EventServiceImpl.java:125-127 | every update of a PUBLISHED event fails, whoever sends it and whatever it carries |
| EventProperties.OnlyAdminPublishes | ewm-service/src/main/java/ru/practicum/event/EventServiceImpl.java:129-134 | an initiator update never yields PUBLISHED; an administrator update yields it only from PENDING with the publish action |
| EventProperties.UpdateResetsLedger | ewm-service/src/main/java/ru/practicum/event/EventServiceImpl.java:142-156 | after any successful event update the stored ledger is 0; after an administrator update the publication time is null |
| EventProperties.CreateEventDateBoundary | ewm-service/src/main/java/ru/practicum/event/EventServiceImpl.java:215-217 | a date exactly two hours ahead is accepted; one second earlier is refused |
| EventProperties.EventWritesKeepCategoryRefs | ewm-service/src/main/java/ru/practicum/event/EventServiceImpl.java:116-157 | creating an event and both event updates keep every event's category reference pointing at a stored category |
| EventProperties.CategoryWritesKeepCategoryRefs | ewm-service/src/main/java/ru/practicum/category/CategoryServiceImpl.java:40-49 | renaming and deleting categories keep every event's category reference pointing at a stored category, since a category in use is not deleted |
| EventProperties.RenameReachesEventViews | ewm-service/src/main/java/ru/practicum/category/CategoryServiceImpl.java:30-36 | after a rename, the full and short views of every event in the category, and the answer of a later administrator update, show the new name |
| EventProperties.UpdateDateLeads | ewm-service/src/main/java/ru/practicum/event/EventServiceImpl.java:120-123 | a date ninety minutes ahead passes the administrator's one-hour lead but fails the initiator's two-hour lead; exactly one hour ahead passes the administrator's |
| EventProperties.EqualsIgnoreCaseIsFold | ewm-service/src/main/java/ru/practicum/event/EventServiceImpl.java:85-87 | against a constant the fold leaves alone, ignoring case is the same as comparing the folded parameter |
| EventProperties.ParseSortByFold | ewm-service/src/main/java/ru/practicum/event/EventServiceImpl.java:84-91 | a sort parameter is accepted exactly when its fold is "EVENT_DATE" or "VIEWS" |
| EventProperties.ParseSortIgnoresCase | ewm-service/src/main/java/ru/practicum/event/EventServiceImpl.java:84-91 | folding the parameter first never changes the outcome |
| EventProperties.ParseSortAcceptsLowerCase | ewm-service/src/main/java/ru/practicum/event/EventServiceImpl.java:84-91 | "views" is accepted as VIEWS |
| EventProperties.ParseSortAcceptsMixedCase | ewm-service/src/main/java/ru/practicum/event/EventServiceImpl.java:84-91 | "Event_Date" is accepted as EVENT_DATE |
| EventProperties.ParseSortAcceptsDotlessI | ewm-service/src/main/java/ru/practicum/event/EventServiceImpl.java:84-91 | "v" + dotless i + "ews" is accepted as VIEWS, because the dotless i upper-cases to I |
| EventProperties.ParseSortRefusesNearMisses | ewm-service/src/main/java/ru/practicum/event/EventServiceImpl.java:84-91 | "VIEW" and "event-date" are refused with InvalidPathVariable |
| EventProperties.NonPositiveIdRefused | ewm-service/src/main/java/ru/practicum/event/EventServiceImpl.java:94-99 | a single zero or negative id refuses both searches |

## Left out

- Controllers, HTTP routing, bean validation and logging are left out, as are the view bump and the statistics call. They are presentation and network I/O.
- Both statistics services are left out. They are wrappers over unseen SQL and library timestamp formatting.
- Repository queries are left out: the event searches' filtering, paging, sorting and list pages. Only the parameter checks that precede them are modelled.
- The read-only list operations are left out for the same reason: `getRequests`, `findByUserIdAndEventId`, `getCompilations`, `findByIdAndState`, `findByUserId`, `findByIdAndUserId`, `getPlaces` and `getCategories`, with their page mappers.
- `@Transactional` and concurrent access to the ledger are left out. Each operation is one sequential, atomic step over an explicit store.
- The clock and date parsing are left out. `LocalDateTime.now()` becomes the parameter `now`, and dates are integers in seconds.
- Saving a location and the location's generated id are left out. A location is kept as its coordinates.
- The user, location and in-place mappers, and category creation, are left out. They copy fields one to one.
- `Compilation.addEvent` and `Compilation.removeEvent` are not part of this model. Adding is modelled as keeping the event's id. The event-detaching loop of `deleteCompilation` is not modelled, because its effect depends on the unseen entity.
- Lat, lon and radius are opaque values. No arithmetic is done on them.
- Null elements inside the id arrays of the searches are left out. The arrays are modelled as sequences of integers.
- A null sort parameter is left out. The sort is always a string.
- EventService.FoldCase: only models the part of Java's case-insensitive comparison that can matter against the upper-case ASCII constants "EVENT_DATE" and "VIEWS". These are the ASCII letters, the dotted and dotless I, and the long s. Comparing two arbitrary strings is not modelled.
- EventService.UpdateEventByAdmin: models the null dereference on a non-PENDING event without an action as the error `NullDereference`, not as a crash.
- EventProperties.UpdateResetsLedger: depends on the `Event` entity having no builder defaults. `Event.java` is not part of this model.
- A reference the stores do not hold renders as no category, or is skipped in a compilation's view. The schema's foreign keys, not part of this model, rule this out; `EventProperties.EventWritesKeepCategoryRefs` and `EventProperties.CategoryWritesKeepCategoryRefs` show the modelled operations keep category references valid. Events are never deleted here.
- EventService.AdminAction: assumes the administrator's action enum has exactly the values PUBLISH_EVENT and REJECT_EVENT. The enum is not part of this model, so the switch's `default` branch (EventServiceImpl.java:137-138) is not modelled.
- CompilationService.DeleteCompilation: success assumes that the detaching loop at CompilationServiceImpl.java:52 completes. If `Compilation.removeEvent` removes from the set being iterated, the loop throws once two or more events are attached, the transaction rolls back and nothing is deleted. `Compilation.java` is not part of this model, so that failure is not modelled.
- Integer width is not modelled: `participantLimit`, `confirmedRequests` and the ids are unbounded here, while the source uses 32-bit `int`s. The ledger's wrap-around at 2^31 is left out, because the ledger counts confirmed participants and cannot realistically reach it.

=== FILE: category_mapper.dfy ===
/** The parts of the category mapper the services call: building a category
    from a looked-up DTO, renaming a stored one, and rendering one. */
module CategoryMapper {
  import opened Optional
  import opened Domain

  datatype CategoryDto = CategoryDto(id: Option<int>, name: Option<string>)

  /** `toCategory(categoryId, dto)`: the id comes from the caller, the name from the DTO. */
  function ToCategory(categoryId: int, d: CategoryDto): (c: Category)
    ensures c.id == Some(categoryId) && c.name == d.name
  {
    Category(Some(categoryId), d.name)
  }

  /** `toCategory(category, dto)`: keeps the stored id and takes the DTO's
      name as it is, null included. */
  function RenameCategory(c: Category, d: CategoryDto): (r: Category)
    ensures r.id == c.id && r.name == d.name
  {
    Category(c.id, d.name)
  }

  function ToCategoryDto(c: Category): (d: CategoryDto)
    ensures d.id == c.id && d.name == c.name
  {
    CategoryDto(c.id, c.name)
  }
}

=== FILE: category_service.dfy ===
/** Category administration over the category store. */
module CategoryService {
  import opened Optional
  import opened Domain
  import opened CategoryMapper

  /** Ids of events whose category is `categoryId` (`findByCategoryId`). */
  function EventsInCategory(events: map<int, Event>, categoryId: int): set<int> {
    set k | k in events && events[k].category == Some(categoryId)
  }

  /** `updateCategory(categoryId, dto)`: the stored category keeps its id and
      takes the DTO's name unconditionally, null included. */
  function UpdateCategory(db: Db, categoryId: int, d: CategoryDto): (r: Result<(Db, CategoryDto)>)
    ensures categoryId !in db.categories ==> r == Failure(NotFound)
    ensures r.Success? <==> categoryId in db.categories
    ensures r.Success? ==>
              var stored := db.categories[categoryId];
              && r.value.0 == db.(categories := db.categories[categoryId := Category(stored.id, d.name)])
              && r.value.1.id == stored.id && r.value.1.name == d.name
  {
    if categoryId !in db.categories then Failure(NotFound)
    else
      var saved := RenameCategory(db.categories[categoryId], d);
      Success((db.(categories := db.categories[categoryId := saved]), ToCategoryDto(saved)))
  }

  /** `deleteCategory(categoryId)`: refused while any event uses the
      category; otherwise exactly that category disappears. */
  function DeleteCategory(db: Db, categoryId: int): (r: Result<Db>)
    ensures categoryId !in db.categories ==> r == Failure(NotFound)
    ensures categoryId in db.categories && EventsInCategory(db.events, categoryId) != {}
            ==> r == Failure(InvalidEventStateOrDate)
    ensures r.Success? <==> categoryId in db.categories && EventsInCategory(db.events, categoryId) == {}
    ensures r.Success? ==>
              && r.value.categories.Keys == db.categories.Keys - {categoryId}
              && (forall k :: k in r.value.categories ==> r.value.categories[k] == db.categories[k])
              && r.value == db.(categories := r.value.categories)
  {
    if categoryId !in db.categories then Failure(NotFound)
    else if EventsInCategory(db.events, categoryId) != {} then Failure(InvalidEventStateOrDate)
    else Success(db.(categories := db.categories - {categoryId}))
  }

  /** `getCategoryById(categoryId)`. */
  function GetCategoryById(db: Db, categoryId: int): (r: Result<CategoryDto>)
    ensures r.Success? <==> categoryId in db.categories
    ensures categoryId !in db.categories ==> r == Failure(NotFound)
    ensures r.Success? ==> r.value == ToCategoryDto(db.categories[categoryId])
  {
    if categoryId !in db.categories then Failure(NotFound)
    else Success(ToCategoryDto(db.categories[categoryId]))
  }

  /** Reading a category after renaming it shows the new name under the stored id. */
  lemma GetAfterUpdateCategory(db: Db, categoryId: int, d: CategoryDto)
    requires categoryId in db.categories
    ensures var u := UpdateCategory(db, categoryId, d);
            && u.Success?
            && GetCategoryById(u.value.0, categoryId) == Success(CategoryDto(db.categories[categoryId].id, d.name))
            && GetCategoryById(u.value.0, categoryId) == Success(u.value.1)
  {
  }

  /** Renaming to a null name stores a null name: there is no null-keeping here. */
  lemma UpdateCategoryNullName(db: Db, categoryId: int)
    requires categoryId in db.categories
    ensures var u := UpdateCategory(db, categoryId, CategoryDto(None, None));
            u.Success? && u.value.0.categories[categoryId].name.None?
  {
  }

  /** After a delete, the category can no longer be read, and other categories still can. */
  lemma GetAfterDeleteCategory(db: Db, categoryId: int, other: int)
    requires categoryId in db.categories && EventsInCategory(db.events, categoryId) == {}
    requires other in db.categories && other != categoryId
    ensures var d := DeleteCategory(db, categoryId);
            && d.Success?
            && GetCategoryById(d.value, categoryId) == Failure(NotFound)
            && GetCategoryById(d.value, other) == GetCategoryById(db, other)
  {
  }

  /** An event that uses the category blocks its deletion. */
  lemma UsedCategoryIsKept(db: Db, categoryId: int, eventId: int)
    requires categoryId in db.categories
    requires eventId in db.events && db.events[eventId].category == Some(categoryId)
    ensures DeleteCategory(db, categoryId) == Failure(InvalidEventStateOrDate)
  {
    assert eventId in EventsInCategory(db.events, categoryId);
  }
}

=== FILE: compilation_mapper.dfy ===
/** Conversions between compilations and their DTOs. */
module CompilationMapper {
  import opened Optional
  import opened Domain
  import opened EventMapper

  datatype NewCompilationDto = NewCompilationDto(title: string, pinned: Option<bool>, events: Option<set<int>>)

  datatype UpdateCompilationRequest = UpdateCompilationRequest(
    title: Option<string>,
    pinned: Option<bool>,
    events: Option<set<int>>)

  datatype CompilationDto = CompilationDto(id: Option<int>, title: string, pinned: bool, events: set<EventShortDto>)

  /** `toCompilation(NewCompilationDto)`: the title as given, unpinned unless
      the DTO says pinned; no id and no events yet. */
  function ToCompilation(d: NewCompilationDto): (c: Compilation)
    ensures c.title == d.title
    ensures c.pinned <==> d.pinned == Some(true)
    ensures c.id.None? && c.events.None?
  {
    Compilation(None, d.title, d.pinned.GetOr(false), None)
  }

  /** `toCompilation(update, compilation)`: null fields keep the stored title
      and pinned flag, non-null ones replace them. The builder sets nothing
      else, so the result has neither an id nor events. */
  function MergeCompilation(d: UpdateCompilationRequest, c: Compilation): (r: Compilation)
    ensures d.title.None? ==> r.title == c.title
    ensures d.title.Some? ==> r.title == d.title.value
    ensures d.pinned.None? ==> r.pinned == c.pinned
    ensures d.pinned.Some? ==> r.pinned == d.pinned.value
    ensures r.id.None? && r.events.None?
  {
    Compilation(None, d.title.GetOr(c.title), d.pinned.GetOr(c.pinned), None)
  }

  /** A compilation request that carries nothing. */
  const EmptyCompilationRequest: UpdateCompilationRequest := UpdateCompilationRequest(None, None, None)

  /** Merging a request that carries nothing keeps the title and the pinned
      flag; merging the same request twice is merging it once. */
  lemma MergeCompilationLaws(d: UpdateCompilationRequest, c: Compilation)
    ensures MergeCompilation(EmptyCompilationRequest, c) == c.(id := None, events := None)
    ensures MergeCompilation(d, MergeCompilation(d, c)) == MergeCompilation(d, c)
  {
  }

  /** `toCompilationDto`: id, title and pinned flag copied; one short view per
      event, read from the event store as it is now, and no events when the
      field is null or empty. */
  function ToCompilationDto(c: Compilation, events: map<int, Event>, categories: map<int, Category>): (d: CompilationDto)
    ensures d.id == c.id && d.title == c.title && d.pinned == c.pinned
    ensures (c.events.None? || c.events.value == {}) ==> d.events == {}
    ensures c.events.Some? ==>
              forall k :: k in c.events.value && k in events ==> ToEventShortDto(events[k], categories) in d.events
    ensures forall v :: v in d.events ==>
              c.events.Some? && exists k :: k in c.events.value && k in events && v == ToEventShortDto(events[k], categories)
  {
    var views: set<EventShortDto> :=
      if c.events.None? || c.events.value == {} then {}
      else set k | k in c.events.value && k in events :: ToEventShortDto(events[k], categories);
    CompilationDto(c.id, c.title, c.pinned, views)
  }
}

=== FILE: compilation_service.dfy ===
/** Compilation administration: compilations and the events attached to them. */
module CompilationService {
  import opened Optional
  import opened Domain
  import opened EventMapper
  import opened CompilationMapper

  /** The ids among `ids` the event store holds: what `findAllById` finds. */
  function FoundIds(events: map<int, Event>, ids: set<int>): set<int> {
    set k | k in ids && k in events
  }

  /** `addEventsInCompilation`: the event set is always replaced; null or
      empty ids give no events, otherwise the stored events with those ids. */
  function AddEvents(c: Compilation, ids: Option<set<int>>, events: map<int, Event>): (r: Compilation)
    ensures r == c.(events := r.events) && r.events.Some?
    ensures (ids.None? || ids.value == {}) ==> r.events.value == {}
    ensures forall k :: k in r.events.value <==> ids.Some? && k in ids.value && k in events
    ensures r.events == Some(FoundIds(events, ids.GetOr({})))
  {
    if ids.Some? && ids.value != {} then c.(events := Some(FoundIds(events, ids.value)))
    else
      assert FoundIds(events, ids.GetOr({})) == {};
      c.(events := Some({}))
  }

  /** Attaching events replaces what was attached before, so attaching
      twice is the second attachment alone. */
  lemma AddEventsReplaces(c: Compilation, first: Option<set<int>>, second: Option<set<int>>, events: map<int, Event>)
    ensures AddEvents(AddEvents(c, first, events), second, events) == AddEvents(c, second, events)
    ensures AddEvents(AddEvents(c, second, events), second, events) == AddEvents(c, second, events)
  {
  }

  /** `createCompilation(dto)`: the mapped compilation with its events
      resolved, saved under the id the store assigns. */
  function CreateCompilation(db: Db, d: NewCompilationDto, freshId: int): (r: (Db, CompilationDto))
    requires freshId !in db.compilations
    ensures freshId in r.0.compilations
    ensures r.0 == db.(compilations := db.compilations[freshId := r.0.compilations[freshId]])
    ensures var c := r.0.compilations[freshId];
            && c.id == Some(freshId) && c.title == d.title && (c.pinned <==> d.pinned == Some(true))
            && c.events == Some(if d.events.Some? then FoundIds(db.events, d.events.value) else {})
    ensures r.1 == ToCompilationDto(r.0.compilations[freshId], db.events, db.categories)
  {
    var c := AddEvents(ToCompilation(d), d.events, db.events).(id := Some(freshId));
    (db.(compilations := db.compilations[freshId := c]), ToCompilationDto(c, db.events, db.categories))
  }

  /** `updateCompilation(compId, dto)`. The merge's result is thrown away,
      so the stored title and pinned flag never change; only the events are
      replaced, and an update without events clears them. */
  function UpdateCompilation(db: Db, compId: int, d: UpdateCompilationRequest): (r: Result<(Db, CompilationDto)>)
    ensures compId !in db.compilations ==> r == Failure(NotFound)
    ensures r.Success? <==> compId in db.compilations
    ensures r.Success? ==> compId in r.value.0.compilations
    ensures r.Success? ==>
              var prior, c := db.compilations[compId], r.value.0.compilations[compId];
              && r.value.0 == db.(compilations := db.compilations[compId := c])
              && c.id == prior.id && c.title == prior.title && c.pinned == prior.pinned
              && c.events == Some(if d.events.Some? then FoundIds(db.events, d.events.value) else {})
              && r.value.1 == ToCompilationDto(c, db.events, db.categories)
  {
    if compId !in db.compilations then Failure(NotFound)
    else
      var stored := db.compilations[compId];
      var _ := MergeCompilation(d, stored);
      var c := AddEvents(stored, d.events, db.events);
      Success((db.(compilations := db.compilations[compId := c]), ToCompilationDto(c, db.events, db.categories)))
  }

  /** `deleteCompilation(compId)`: exactly that compilation disappears. */
  function DeleteCompilation(db: Db, compId: int): (r: Result<Db>)
    ensures compId !in db.compilations ==> r == Failure(NotFound)
    ensures r.Success? <==> compId in db.compilations
    ensures r.Success? ==>
              && r.value.compilations.Keys == db.compilations.Keys - {compId}
              && (forall k :: k in r.value.compilations ==> r.value.compilations[k] == db.compilations[k])
              && r.value == db.(compilations := r.value.compilations)
  {
    if compId !in db.compilations then Failure(NotFound)
    else Success(db.(compilations := db.compilations - {compId}))
  }

  /** `getCompilationById(compId)`: the view of the stored compilation,
      rendered against the current event and category stores. */
  function GetCompilationById(db: Db, compId: int): (r: Result<CompilationDto>)
    ensures r.Success? <==> compId in db.compilations
    ensures compId !in db.compilations ==> r == Failure(NotFound)
    ensures r.Success? ==> r.value.id == db.compilations[compId].id && r.value.title == db.compilations[compId].title
    ensures r.Success? ==> r.value.pinned == db.compilations[compId].pinned
    ensures r.Success? ==> r.value == ToCompilationDto(db.compilations[compId], db.events, db.categories)
  {
    if compId !in db.compilations then Failure(NotFound)
    else Success(ToCompilationDto(db.compilations[compId], db.events, db.categories))
  }

  /** Reading a compilation right after creating it gives the view the
      creation returned; deleting it again restores the store, after which
      it can be neither read, updated nor deleted. */
  lemma CreateThenReadAndDelete(db: Db, d: NewCompilationDto, freshId: int, u: UpdateCompilationRequest)
    requires freshId !in db.compilations
    ensures var (db1, view) := CreateCompilation(db, d, freshId);
            && GetCompilationById(db1, freshId) == Success(view)
            && view.id == Some(freshId) && view.title == d.title
            && DeleteCompilation(db1, freshId) == Success(db)
            && GetCompilationById(DeleteCompilation(db1, freshId).value, freshId) == Failure(NotFound)
            && UpdateCompilation(DeleteCompilation(db1, freshId).value, freshId, u) == Failure(NotFound)
            && DeleteCompilation(DeleteCompilation(db1, freshId).value, freshId) == Failure(NotFound)
  {
    var (db1, view) := CreateCompilation(db, d, freshId);
    assert db1.compilations - {freshId} == db.compilations;
  }

  /** A compilation's view follows its events: once an attached event is
      replaced in the store, reading the compilation shows the new event. */
  lemma ViewFollowsEvents(db: Db, compId: int, eventId: int, e': Event)
    requires compId in db.compilations
    requires db.compilations[compId].events.Some? && eventId in db.compilations[compId].events.value
    ensures var r := GetCompilationById(db.(events := db.events[eventId := e']), compId);
            && r.Success?
            && ToEventShortDto(e', db.categories) in r.value.events
  {
  }

  /** A new title or pin sent in an update never reaches the store, even
      though the merge mapper would apply it. */
  lemma UpdateIgnoresTitleAndPin(db: Db, compId: int, title: string, pinned: bool)
    requires compId in db.compilations
    requires title != db.compilations[compId].title
    ensures var d := UpdateCompilationRequest(Some(title), Some(pinned), None);
            var u := UpdateCompilation(db, compId, d);
            && u.Success?
            && MergeCompilation(d, db.compilations[compId]).title == title
            && u.value.0.compilations[compId].title != title
            && u.value.0.compilations[compId].events == Some({})
  {
  }

  /** Updating twice with the same request is the same as updating once. */
  lemma UpdateCompilationIdempotent(db: Db, compId: int, d: UpdateCompilationRequest)
    requires compId in db.compilations
    ensures var u := UpdateCompilation(db, compId, d);
            && u.Success?
            && UpdateCompilation(u.value.0, compId, d) == u
  {
    var u := UpdateCompilation(db, compId, d);
    var c := u.value.0.compilations[compId];
    assert AddEvents(c, d.events, u.value.0.events) == c;
    assert u.value.0.compilations[compId := c] == u.value.0.compilations;
  }
}

=== FILE: domain.dfy ===
/** Entities shared by the services: events, participation requests,
    categories, places, compilations, and the store that holds them. */
module Domain {
  import opened Optional

  /** An abstract instant in seconds. The clock and the date formatter are
      outside the model: callers pass `now` in. */
  type Time = int

  const Hour: int := 3600

  /** The failures the services raise, named after the source's exceptions. */
  datatype Error =
    | NotFound                      // ObjectNotFoundException
    | InvalidParticipationRequest   // InvalidParticipationRequest
    | InvalidEventStateOrDate       // InvalidEventStateOrDate
    | InvalidPathVariable           // InvalidPathVariableException
    | NullDereference               // a NullPointerException the code would raise
    | NullArgument                  // a null id list the repository refuses (IllegalArgumentException)

  datatype Result<+T> = Success(value: T) | Failure(error: Error)

  datatype EventState = Pending | Published | Canceled

  datatype RequestStatus = Pending | Confirmed | Rejected | Canceled

  datatype Category = Category(id: Option<int>, name: Option<string>)

  /** Coordinates are opaque: the services never compute with them. */
  datatype Location = Location(lat: real, lon: real)

  /** An event. `id` is `None` until the store assigns one; `initiator` is
      the id of the user who created it; `category` is the id of its
      category, a reference into the category store, so a renamed category
      shows its new name on every event that uses it; `confirmedRequests`
      is the capacity ledger the admission logic reads and writes. */
  datatype Event = Event(
    id: Option<int>,
    title: string,
    annotation: string,
    description: string,
    eventDate: Time,
    participantLimit: nat,
    paid: bool,
    requestModeration: bool,
    category: Option<int>,
    location: Option<Location>,
    initiator: Option<int>,
    state: EventState,
    confirmedRequests: nat,
    views: nat,
    createdOn: Option<Time>,
    publishedOn: Option<Time>)

  /** A participation request; the user and event it references are kept by id. */
  datatype Request = Request(
    id: Option<int>,
    requester: int,
    event: int,
    created: Time,
    status: RequestStatus)

  /** Every place field is nullable in the source, so each is an `Option`. */
  datatype Place = Place(
    id: Option<int>,
    name: Option<string>,
    lat: Option<real>,
    lon: Option<real>,
    radius: Option<real>)

  /** A compilation refers to its events by id, so their current state is
      what its view shows; `events` is `None` while the field is null. */
  datatype Compilation = Compilation(
    id: Option<int>,
    title: string,
    pinned: bool,
    events: Option<set<int>>)

  /** All repositories at one instant, keyed by entity id. Users are only
      ever looked up, so the model keeps their ids. */
  datatype Db = Db(
    events: map<int, Event>,
    requests: map<int, Request>,
    users: set<int>,
    categories: map<int, Category>,
    places: map<int, Place>,
    compilations: map<int, Compilation>)

  /** No two positions of `s` hold the same id. */
  predicate Distinct(s: seq<int>) {
    forall i, j :: 0 <= i < j < |s| ==> s[i] != s[j]
  }
}

=== FILE: event_mapper.dfy ===
/** Conversions between events and their DTOs: the defaults a new event gets,
    the "null keeps the old value" merge of an update, and the fields the
    full and short views copy. */
module EventMapper {
  import opened Optional
  import opened Domain
  import opened CategoryMapper

  datatype NewEventDto = NewEventDto(
    title: string,
    annotation: string,
    description: string,
    eventDate: Time,
    category: int,
    location: Option<Location>,
    paid: Option<bool>,
    participantLimit: Option<nat>,
    requestModeration: Option<bool>)

  /** The fields an update request may carry. The user's and the admin's
      update DTOs have the same fields apart from the state action, which
      the services take separately. */
  datatype EventPatch = EventPatch(
    title: Option<string>,
    annotation: Option<string>,
    description: Option<string>,
    category: Option<int>,
    eventDate: Option<Time>,
    paid: Option<bool>,
    participantLimit: Option<nat>,
    requestModeration: Option<bool>,
    location: Option<Location>)

  /** An update that carries no field at all. */
  const EmptyPatch: EventPatch := EventPatch(None, None, None, None, None, None, None, None, None)

  datatype EventFullDto = EventFullDto(
    id: Option<int>,
    title: string,
    description: string,
    eventDate: Time,
    paid: bool,
    annotation: string,
    confirmedRequests: nat,
    views: nat,
    participantLimit: nat,
    createdOn: Option<Time>,
    publishedOn: Option<Time>,
    requestModeration: bool,
    state: EventState,
    initiator: Option<int>,
    category: Option<CategoryDto>,
    location: Option<Location>)

  datatype EventShortDto = EventShortDto(
    id: Option<int>,
    title: string,
    description: string,
    eventDate: Time,
    paid: bool,
    annotation: string,
    confirmedRequests: nat,
    views: nat,
    initiator: Option<int>,
    category: Option<CategoryDto>)

  /** `toEvent(NewEventDto, category, location)`. A missing limit means
      "unlimited" (0), a missing paid flag means unpaid and a missing
      moderation flag means moderated. The builder leaves every other field
      at its default: no id, no initiator, a zero ledger, no timestamps. Its
      state is left unset too; the only caller sets PENDING at once, which is
      the value written here. */
  function ToNewEvent(d: NewEventDto, category: Option<int>, location: Option<Location>): (e: Event)
    ensures d.participantLimit.None? ==> e.participantLimit == 0
    ensures d.participantLimit.Some? ==> e.participantLimit == d.participantLimit.value
    ensures e.paid <==> d.paid == Some(true)
    ensures e.requestModeration <==> d.requestModeration != Some(false)
    ensures e.title == d.title && e.annotation == d.annotation && e.description == d.description
    ensures e.eventDate == d.eventDate && e.category == category && e.location == location
    ensures e.id.None? && e.initiator.None? && e.createdOn.None? && e.publishedOn.None?
    ensures e.confirmedRequests == 0 && e.views == 0
  {
    Event(
      id := None,
      title := d.title,
      annotation := d.annotation,
      description := d.description,
      eventDate := d.eventDate,
      participantLimit := d.participantLimit.GetOr(0),
      paid := d.paid.GetOr(false),
      requestModeration := d.requestModeration.GetOr(true),
      category := category,
      location := location,
      initiator := None,
      state := EventState.Pending,
      confirmedRequests := 0,
      views := 0,
      createdOn := None,
      publishedOn := None)
  }

  /** The fields of `e` that an update merges. */
  predicate SameMergedFields(a: Event, b: Event) {
    && a.title == b.title && a.annotation == b.annotation && a.description == b.description
    && a.eventDate == b.eventDate && a.participantLimit == b.participantLimit
    && a.paid == b.paid && a.requestModeration == b.requestModeration
    && a.category == b.category && a.location == b.location
  }

  /** `toEvent(update, event, category, location, user)`, identical for the
      user's and the admin's update DTOs. Each null field of the patch keeps
      the stored value; a non-null one replaces it (for category and location
      the replacement is the category id and the location the service
      resolved). Id and state come
      from the stored event, the initiator from the stored event unless that
      is null. The builder never sets the ledger, the view count or the
      timestamps, so the merged event carries their defaults. */
  function MergePatch(p: EventPatch, e: Event, category: Option<int>, location: Option<Location>,
                      user: Option<int>): (r: Event)
    ensures r.id == e.id && r.state == e.state
    ensures e.initiator.Some? ==> r.initiator == e.initiator
    ensures e.initiator.None? ==> r.initiator == user
    ensures p.title.None? ==> r.title == e.title
    ensures p.title.Some? ==> r.title == p.title.value
    ensures p.annotation.None? ==> r.annotation == e.annotation
    ensures p.annotation.Some? ==> r.annotation == p.annotation.value
    ensures p.description.None? ==> r.description == e.description
    ensures p.description.Some? ==> r.description == p.description.value
    ensures p.eventDate.None? ==> r.eventDate == e.eventDate
    ensures p.eventDate.Some? ==> r.eventDate == p.eventDate.value
    ensures p.participantLimit.None? ==> r.participantLimit == e.participantLimit
    ensures p.participantLimit.Some? ==> r.participantLimit == p.participantLimit.value
    ensures p.paid.None? ==> r.paid == e.paid
    ensures p.paid.Some? ==> r.paid == p.paid.value
    ensures p.requestModeration.None? ==> r.requestModeration == e.requestModeration
    ensures p.requestModeration.Some? ==> r.requestModeration == p.requestModeration.value
    ensures p.category.None? ==> r.category == e.category
    ensures p.category.Some? ==> r.category == category
    ensures p.location.None? ==> r.location == e.location
    ensures p.location.Some? ==> r.location == location
    ensures r.confirmedRequests == 0 && r.views == 0 && r.createdOn.None? && r.publishedOn.None?
  {
    Event(
      id := e.id,
      title := p.title.GetOr(e.title),
      annotation := p.annotation.GetOr(e.annotation),
      description := p.description.GetOr(e.description),
      eventDate := p.eventDate.GetOr(e.eventDate),
      participantLimit := p.participantLimit.GetOr(e.participantLimit),
      paid := p.paid.GetOr(e.paid),
      requestModeration := p.requestModeration.GetOr(e.requestModeration),
      category := if p.category.None? then e.category else category,
      location := if p.location.None? then e.location else location,
      initiator := if e.initiator.None? then user else e.initiator,
      state := e.state,
      confirmedRequests := 0,
      views := 0,
      createdOn := None,
      publishedOn := None)
  }

  /** Merging an update that carries nothing changes no merged field, and
      the result differs from the stored event only in the fields the
      builder resets. */
  lemma MergeEmptyPatchKeepsEvent(e: Event, category: Option<int>, location: Option<Location>, user: Option<int>)
    requires e.initiator.Some?
    ensures SameMergedFields(MergePatch(EmptyPatch, e, category, location, user), e)
    ensures MergePatch(EmptyPatch, e, category, location, user)
         == e.(confirmedRequests := 0, views := 0, createdOn := None, publishedOn := None)
  {
  }

  /** Applying the same update twice is the same as applying it once. */
  lemma MergeIdempotent(p: EventPatch, e: Event, category: Option<int>, location: Option<Location>, user: Option<int>)
    ensures MergePatch(p, MergePatch(p, e, category, location, user), category, location, user)
         == MergePatch(p, e, category, location, user)
  {
  }

  /** The category view of an event: the category the reference points at,
      read from the store as it is now. A reference the store does not hold
      renders as none; the source's foreign key rules that case out. */
  function RenderCategory(ref: Option<int>, categories: map<int, Category>): (v: Option<CategoryDto>)
    ensures v.Some? <==> ref.Some? && ref.value in categories
    ensures v.Some? ==> v.value.id == categories[ref.value].id && v.value.name == categories[ref.value].name
  {
    if ref.Some? && ref.value in categories then Some(ToCategoryDto(categories[ref.value])) else None
  }

  /** The full view shows the ledger, the limit, the moderation flag and the
      state exactly as stored, and the category as the store holds it now. */
  function ToEventFullDto(e: Event, categories: map<int, Category>): (d: EventFullDto)
    ensures d.confirmedRequests == e.confirmedRequests
    ensures d.participantLimit == e.participantLimit
    ensures d.requestModeration == e.requestModeration
    ensures d.state == e.state
    ensures d.id == e.id && d.initiator == e.initiator
    ensures d.createdOn == e.createdOn && d.publishedOn == e.publishedOn
    ensures e.category.None? ==> d.category.None?
    ensures e.category.Some? && e.category.value in categories ==>
              d.category == Some(CategoryDto(categories[e.category.value].id, categories[e.category.value].name))
  {
    EventFullDto(
      id := e.id,
      title := e.title,
      description := e.description,
      eventDate := e.eventDate,
      paid := e.paid,
      annotation := e.annotation,
      confirmedRequests := e.confirmedRequests,
      views := e.views,
      participantLimit := e.participantLimit,
      createdOn := e.createdOn,
      publishedOn := e.publishedOn,
      requestModeration := e.requestModeration,
      state := e.state,
      initiator := e.initiator,
      category := RenderCategory(e.category, categories),
      location := e.location)
  }

  function ToEventShortDto(e: Event, categories: map<int, Category>): (d: EventShortDto)
    ensures d.confirmedRequests == e.confirmedRequests
    ensures d.id == e.id && d.initiator == e.initiator && d.paid == e.paid
    ensures e.category.None? ==> d.category.None?
    ensures e.category.Some? && e.category.value in categories ==>
              d.category == Some(CategoryDto(categories[e.category.value].id, categories[e.category.value].name))
  {
    EventShortDto(
      id := e.id,
      title := e.title,
      description := e.description,
      eventDate := e.eventDate,
      paid := e.paid,
      annotation := e.annotation,
      confirmedRequests := e.confirmedRequests,
      views := e.views,
      initiator := e.initiator,
      category := RenderCategory(e.category, categories))
  }

  /** The short view is the full view with fields left out: every field the
      two share holds the same value. */
  lemma ShortViewAgreesWithFullView(e: Event, categories: map<int, Category>)
    ensures var s, f := ToEventShortDto(e, categories), ToEventFullDto(e, categories);
      && s.id == f.id && s.title == f.title && s.description == f.description
      && s.eventDate == f.eventDate && s.paid == f.paid && s.annotation == f.annotation
      && s.confirmedRequests == f.confirmedRequests && s.views == f.views
      && s.initiator == f.initiator && s.category == f.category
  {
  }
}

=== FILE: event_properties.dfy ===
/** Properties of the event lifecycle: the state machine the two update
    operations implement, the date-lead boundaries, and the case-insensitive
    sort parameter. */
module EventProperties {
  import opened Optional
  import opened Domain
  import opened CategoryMapper
  import opened EventMapper
  import opened EventService
  import CategoryService

  /** The state changes the lifecycle allows, as a reference relation:
      nothing leaves PUBLISHED, a PENDING event may go anywhere, and a
      CANCELED event may go back to review or stay canceled. */
  predicate LegalStep(s: EventState, t: EventState) {
    match s
    case Published => false
    case Pending => true
    case Canceled => t != Published
  }

  /** Every successful administrator update is a legal step. */
  lemma AdminUpdateIsLegalStep(db: Db, eventId: int, p: EventPatch, action: Option<AdminAction>, now: Time)
    requires UpdateEventByAdmin(db, eventId, p, action, now).Success?
    ensures var r := UpdateEventByAdmin(db, eventId, p, action, now);
            LegalStep(db.events[eventId].state, r.value.0.events[eventId].state)
  {
  }

  /** Every successful initiator update is a legal step. */
  lemma UserUpdateIsLegalStep(db: Db, userId: int, eventId: int, p: EventPatch, action: Option<UserAction>, now: Time)
    requires UpdateUserEvent(db, userId, eventId, p, action, now).Success?
    ensures var r := UpdateUserEvent(db, userId, eventId, p, action, now);
            LegalStep(db.events[eventId].state, r.value.0.events[eventId].state)
  {
  }

  /** PUBLISHED is terminal: no update of a published event succeeds,
      whatever it carries and whoever sends it. */
  lemma PublishedIsTerminal(db: Db, eventId: int, userId: int, p: EventPatch,
                            adminAction: Option<AdminAction>, userAction: Option<UserAction>, now: Time)
    requires eventId in db.events && db.events[eventId].state == Published
    ensures UpdateEventByAdmin(db, eventId, p, adminAction, now).Failure?
    ensures UpdateUserEvent(db, userId, eventId, p, userAction, now).Failure?
  {
  }

  /** Only the administrator publishes, and only a PENDING event, and only
      with the publish action. */
  lemma OnlyAdminPublishes(db: Db, eventId: int, userId: int, p: EventPatch,
                           adminAction: Option<AdminAction>, userAction: Option<UserAction>, now: Time)
    ensures var r := UpdateUserEvent(db, userId, eventId, p, userAction, now);
            r.Success? ==> r.value.0.events[eventId].state != Published
    ensures var r := UpdateEventByAdmin(db, eventId, p, adminAction, now);
            r.Success? && r.value.0.events[eventId].state == Published ==>
              db.events[eventId].state == EventState.Pending && adminAction == Some(PublishEvent)
  {
  }

  /** Every legal step is taken by some update that changes nothing else,
      provided the event is not too close and its owner exists. */
  lemma LegalStepsAreReachable(db: Db, eventId: int, t: EventState, now: Time)
    requires eventId in db.events && LegalStep(db.events[eventId].state, t)
    requires db.events[eventId].initiator.Some? && db.events[eventId].initiator.value in db.users
    ensures || (exists a :: UpdateEventByAdmin(db, eventId, EmptyPatch, a, now).Success? &&
                            UpdateEventByAdmin(db, eventId, EmptyPatch, a, now).value.0.events[eventId].state == t)
            || (exists a :: UpdateUserEvent(db, db.events[eventId].initiator.value, eventId, EmptyPatch, a, now).Success? &&
                            UpdateUserEvent(db, db.events[eventId].initiator.value, eventId, EmptyPatch, a, now).value.0.events[eventId].state == t)
  {
    var s := db.events[eventId].state;
    var owner := db.events[eventId].initiator.value;
    var admin: Option<AdminAction> := match t
      case Published => Some(PublishEvent)
      case Canceled => Some(RejectEvent)
      case Pending => None;
    var user: Option<UserAction> := match t
      case Pending => Some(SendToReview)
      case _ => Some(CancelReview);
    if s == EventState.Pending {
      assert UpdateEventByAdmin(db, eventId, EmptyPatch, admin, now).value.0.events[eventId].state == t;
    } else {
      assert UpdateUserEvent(db, owner, eventId, EmptyPatch, user, now).value.0.events[eventId].state == t;
    }
  }

  /** Any successful update writes a zero ledger and no publication time:
      the merge builder never copies them from the stored event. */
  lemma UpdateResetsLedger(db: Db, eventId: int, userId: int, p: EventPatch,
                           adminAction: Option<AdminAction>, userAction: Option<UserAction>, now: Time)
    ensures var r := UpdateEventByAdmin(db, eventId, p, adminAction, now);
            r.Success? ==> r.value.0.events[eventId].confirmedRequests == 0 &&
                           r.value.0.events[eventId].publishedOn.None?
    ensures var r := UpdateUserEvent(db, userId, eventId, p, userAction, now);
            r.Success? ==> r.value.0.events[eventId].confirmedRequests == 0
  {
  }

  /** The two-hour lead of creation is inclusive: a date exactly two hours
      ahead is accepted and one second earlier is refused. */
  lemma CreateEventDateBoundary(db: Db, userId: int, d: NewEventDto, now: Time, freshId: int)
    requires freshId !in db.events && userId in db.users && d.category in db.categories
    ensures CreateEvent(db, userId, d.(eventDate := now + 2 * Hour), now, freshId).Success?
    ensures CreateEvent(db, userId, d.(eventDate := now + 2 * Hour - 1), now, freshId) == Failure(InvalidPathVariable)
  {
  }

  /** The administrator's lead is one hour and the initiator's two: a date
      ninety minutes ahead passes the first guard and fails the second. */
  lemma UpdateDateLeads(db: Db, userId: int, eventId: int, p: EventPatch, now: Time)
    requires eventId in db.events && db.events[eventId].state == EventState.Pending
    requires userId in db.users && p.category.None?
    ensures var q := p.(eventDate := Some(now + Hour + Hour / 2));
            && UpdateEventByAdmin(db, eventId, q, None, now).Success?
            && UpdateUserEvent(db, userId, eventId, q, None, now) == Failure(InvalidPathVariable)
    ensures var q := p.(eventDate := Some(now + Hour));
            UpdateEventByAdmin(db, eventId, q, None, now).Success?
  {
  }

  /** Every event's category reference names a stored category: the
      foreign key the schema keeps. */
  predicate CategoryRefsResolve(db: Db) {
    forall k :: k in db.events && db.events[k].category.Some? ==> db.events[k].category.value in db.categories
  }

  /** Creating and updating events keep every event's category reference
      resolvable: a new or changed reference names a category the update
      found. */
  lemma EventWritesKeepCategoryRefs(db: Db, userId: int, eventId: int, freshId: int, d: NewEventDto,
                                    p: EventPatch, adminAction: Option<AdminAction>,
                                    userAction: Option<UserAction>, now: Time)
    requires CategoryRefsResolve(db)
    ensures freshId !in db.events ==>
              var r := CreateEvent(db, userId, d, now, freshId);
              r.Success? ==> CategoryRefsResolve(r.value.0)
    ensures var r := UpdateEventByAdmin(db, eventId, p, adminAction, now);
            r.Success? ==> CategoryRefsResolve(r.value.0)
    ensures var r := UpdateUserEvent(db, userId, eventId, p, userAction, now);
            r.Success? ==> CategoryRefsResolve(r.value.0)
  {
  }

  /** Renaming and deleting categories keep every event's category
      reference resolvable: a category in use is never deleted. */
  lemma CategoryWritesKeepCategoryRefs(db: Db, categoryId: int, c: CategoryDto)
    requires CategoryRefsResolve(db)
    ensures var r := CategoryService.UpdateCategory(db, categoryId, c);
            r.Success? ==> CategoryRefsResolve(r.value.0)
    ensures var r := CategoryService.DeleteCategory(db, categoryId);
            r.Success? ==> CategoryRefsResolve(r.value)
  {
    var r := CategoryService.DeleteCategory(db, categoryId);
    if r.Success? {
      forall k | k in r.value.events && r.value.events[k].category.Some?
        ensures r.value.events[k].category.value in r.value.categories
      {
        assert k !in CategoryService.EventsInCategory(db.events, categoryId);
      }
    }
  }

  /** A rename reaches every event that uses the category: both views show
      the new name, and so does the answer of a later administrator update
      of a PENDING event. */
  lemma RenameReachesEventViews(db: Db, categoryId: int, c: CategoryDto, eventId: int, now: Time)
    requires categoryId in db.categories
    requires eventId in db.events && db.events[eventId].category == Some(categoryId)
    ensures var u := CategoryService.UpdateCategory(db, categoryId, c);
            var renamed := Some(CategoryDto(db.categories[categoryId].id, c.name));
            && u.Success?
            && ToEventFullDto(u.value.0.events[eventId], u.value.0.categories).category == renamed
            && ToEventShortDto(u.value.0.events[eventId], u.value.0.categories).category == renamed
            && (db.events[eventId].state == EventState.Pending ==>
                  var a := UpdateEventByAdmin(u.value.0, eventId, EmptyPatch, None, now);
                  a.Success? && a.value.1.category == renamed)
  {
  }

  /** The parameter upper-cased with the same fold. */
  function Fold(s: string): (u: string)
    ensures |u| == |s| && forall i :: 0 <= i < |s| ==> u[i] == FoldCase(s[i])
  {
    seq(|s|, i requires 0 <= i < |s| => FoldCase(s[i]))
  }

  /** Characters the fold leaves alone. */
  predicate FoldFixed(t: string) {
    forall i :: 0 <= i < |t| ==> FoldCase(t[i]) == t[i]
  }

  /** Against a constant the fold leaves alone, ignoring case is comparing
      the folded parameter. */
  lemma EqualsIgnoreCaseIsFold(s: string, t: string)
    requires FoldFixed(t)
    ensures EqualsIgnoreCase(s, t) <==> Fold(s) == t
  {
    if EqualsIgnoreCase(s, t) {
      assert forall i :: 0 <= i < |s| ==> Fold(s)[i] == t[i];
    }
  }

  /** The accepted sort parameters are exactly those that fold to one of
      the two constants. */
  lemma ParseSortByFold(sort: string)
    ensures ParseSort(sort) == Success(ByEventDate) <==> Fold(sort) == "EVENT_DATE"
    ensures ParseSort(sort) == Success(ByViews) <==> Fold(sort) == "VIEWS"
    ensures ParseSort(sort).Failure? <==> Fold(sort) != "EVENT_DATE" && Fold(sort) != "VIEWS"
  {
    EqualsIgnoreCaseIsFold(sort, "EVENT_DATE");
    EqualsIgnoreCaseIsFold(sort, "VIEWS");
  }

  /** The sort parameter is case-insensitive: folding it first changes nothing. */
  lemma ParseSortIgnoresCase(sort: string)
    ensures ParseSort(Fold(sort)) == ParseSort(sort)
  {
    ParseSortByFold(sort);
    ParseSortByFold(Fold(sort));
    assert Fold(Fold(sort)) == Fold(sort);
  }

  /** Lower case is accepted. */
  lemma ParseSortAcceptsLowerCase()
    ensures ParseSort("views") == Success(ByViews)
  {
    assert forall i :: 0 <= i < 5 ==> FoldCase("views"[i]) == "VIEWS"[i];
  }

  /** Mixed case is accepted. */
  lemma ParseSortAcceptsMixedCase()
    ensures ParseSort("Event_Date") == Success(ByEventDate)
  {
    assert forall i :: 0 <= i < 10 ==> FoldCase("Event_Date"[i]) == "EVENT_DATE"[i];
  }

  /** The dotless i upper-cases to I, so it is accepted in place of an i. */
  lemma ParseSortAcceptsDotlessI()
    ensures ParseSort("v\U{0131}ews") == Success(ByViews)
  {
    assert FoldCase('\U{0131}') == 'I';
    assert forall i :: 0 <= i < 5 ==> FoldCase("v\U{0131}ews"[i]) == "VIEWS"[i];
  }

  /** A prefix and a hyphen for the underscore are refused. */
  lemma ParseSortRefusesNearMisses()
    ensures ParseSort("VIEW") == Failure(InvalidPathVariable)
    ensures ParseSort("event-date") == Failure(InvalidPathVariable)
  {
    assert FoldCase("event-date"[5]) != FoldCase("EVENT_DATE"[5]);
  }

  /** A zero or negative id anywhere in a filter array is refused. */
  lemma NonPositiveIdRefused(users: seq<int>, categories: Option<seq<int>>, i: int, sort: string)
    requires 0 <= i < |users| && users[i] <= 0
    ensures CheckAdminSearch(Some(users), categories) == Failure(InvalidPathVariable)
    ensures CheckPublicSearch(sort, Some(users)) == Failure(InvalidPathVariable)
  {
  }
}

=== FILE: event_service.dfy ===
/** The event lifecycle: creation, the administrator's and the initiator's
    updates with their date-lead guards and state actions, and the checks
    the two search operations make on their parameters before querying. */
module EventService {
  import opened Optional
  import opened Domain
  import opened CategoryMapper
  import opened EventMapper
  import CategoryService

  /** The administrator's state actions. */
  datatype AdminAction = PublishEvent | RejectEvent

  /** The initiator's state actions. */
  datatype UserAction = SendToReview | CancelReview

  /** The orders the public search accepts. */
  datatype SortKey = ByEventDate | ByViews

  /** `now.plusHours(lead).isAfter(date)`: the date lies strictly less than
      `lead` hours ahead. A date exactly `lead` hours ahead is not too soon. */
  predicate TooSoon(now: Time, lead: nat, date: Time) {
    now + lead * Hour > date
  }

  /** `toCategory(id, categoryService.getCategoryById(id))`. */
  function ResolveCategory(db: Db, categoryId: int): (r: Result<Category>)
    ensures r.Success? <==> categoryId in db.categories
    ensures r.Failure? ==> r.error == NotFound
    ensures r.Success? ==> r.value == Category(Some(categoryId), db.categories[categoryId].name)
  {
    var found := CategoryService.GetCategoryById(db, categoryId);
    if found.Failure? then Failure(found.error) else Success(ToCategory(categoryId, found.value))
  }

  /** The category reference an update resolves: none when the update
      names none, otherwise the id of the category found. */
  function ResolvePatchCategory(db: Db, categoryId: Option<int>): (r: Result<Option<int>>)
    ensures r.Success? <==> (categoryId.Some? ==> categoryId.value in db.categories)
    ensures r.Failure? ==> r.error == NotFound
    ensures r.Success? ==> r.value == categoryId
  {
    if categoryId.None? then Success(None)
    else
      var c := ResolveCategory(db, categoryId.value);
      if c.Failure? then Failure(c.error) else Success(c.value.id)
  }

  /** `createEvent(userId, dto)`. Checks run in this order: the date lead of
      two hours, the user, the category. The new event is PENDING, created
      now, owned by the caller, with the defaults of `toEvent`. */
  function CreateEvent(db: Db, userId: int, d: NewEventDto, now: Time, freshId: int): (r: Result<(Db, EventFullDto)>)
    requires freshId !in db.events
    ensures TooSoon(now, 2, d.eventDate) ==> r == Failure(InvalidPathVariable)
    ensures !TooSoon(now, 2, d.eventDate) && userId !in db.users ==> r == Failure(NotFound)
    ensures !TooSoon(now, 2, d.eventDate) && d.category !in db.categories ==> r == Failure(NotFound)
    ensures r.Success? <==> !TooSoon(now, 2, d.eventDate) && userId in db.users && d.category in db.categories
    ensures r.Success? ==> freshId in r.value.0.events
    ensures r.Success? ==>
              var e := r.value.0.events[freshId];
              && r.value.0 == db.(events := db.events[freshId := e])
              && e.id == Some(freshId) && e.state == EventState.Pending
              && e.initiator == Some(userId) && e.createdOn == Some(now) && e.publishedOn.None?
              && e.confirmedRequests == 0 && e.views == 0
              && SameMergedFields(e, ToNewEvent(d, Some(d.category), d.location))
              && r.value.1 == ToEventFullDto(e, db.categories)
  {
    if TooSoon(now, 2, d.eventDate) then Failure(InvalidPathVariable)
    else if userId !in db.users then Failure(NotFound)
    else
      var category := ResolveCategory(db, d.category);
      if category.Failure? then Failure(category.error)
      else
        var e := ToNewEvent(d, category.value.id, d.location)
                   .(id := Some(freshId), state := EventState.Pending, initiator := Some(userId), createdOn := Some(now));
        Success((db.(events := db.events[freshId := e]), ToEventFullDto(e, db.categories)))
  }

  /** The state an administrator's action leads to. */
  function AdminTransition(s: EventState, action: Option<AdminAction>): (t: EventState)
    ensures action == Some(PublishEvent) ==> t == Published
    ensures action == Some(RejectEvent) ==> t == EventState.Canceled
    ensures action.None? ==> t == s
  {
    match action
    case None => s
    case Some(PublishEvent) => Published
    case Some(RejectEvent) => EventState.Canceled
  }

  /** The state an initiator's action leads to. */
  function UserTransition(s: EventState, action: Option<UserAction>): (t: EventState)
    ensures action == Some(SendToReview) ==> t == EventState.Pending
    ensures action == Some(CancelReview) ==> t == EventState.Canceled
    ensures action.None? ==> t == s
  {
    match action
    case None => s
    case Some(SendToReview) => EventState.Pending
    case Some(CancelReview) => EventState.Canceled
  }

  /** The date guard of an update: only a supplied date is checked. */
  predicate PatchDateTooSoon(p: EventPatch, now: Time, lead: nat) {
    p.eventDate.Some? && TooSoon(now, lead, p.eventDate.value)
  }

  /** `updateEventByAdmin(eventId, dto)`. Checks run in this order: the
      event, the date lead of one hour, the state (only a PENDING event may
      be updated; on any other event the missing action is dereferenced),
      the category. The action is applied, the publication time is set, and
      the merged event is stored under the same id. */
  function UpdateEventByAdmin(db: Db, eventId: int, p: EventPatch, action: Option<AdminAction>, now: Time)
    : (r: Result<(Db, EventFullDto)>)
    ensures eventId !in db.events ==> r == Failure(NotFound)
    ensures eventId in db.events && PatchDateTooSoon(p, now, 1) ==> r == Failure(InvalidPathVariable)
    ensures eventId in db.events && !PatchDateTooSoon(p, now, 1) && db.events[eventId].state != EventState.Pending ==>
              r == Failure(if action.None? then NullDereference else InvalidEventStateOrDate)
    ensures r.Failure? && eventId in db.events && db.events[eventId].state == EventState.Pending && !PatchDateTooSoon(p, now, 1) ==>
              r.error == NotFound
    ensures r.Success? <==>
              && eventId in db.events
              && !PatchDateTooSoon(p, now, 1)
              && db.events[eventId].state == EventState.Pending
              && (p.category.Some? ==> p.category.value in db.categories)
    ensures r.Success? ==> eventId in r.value.0.events
    ensures r.Success? ==>
              var e, e' := db.events[eventId], r.value.0.events[eventId];
              && r.value.0 == db.(events := db.events[eventId := e'])
              && e'.state == AdminTransition(e.state, action)
              && e'.id == e.id && e'.initiator == e.initiator
              && SameMergedFields(e', MergePatch(p, e, p.category, p.location, e.initiator))
              && e'.confirmedRequests == 0 && e'.publishedOn.None?
              && r.value.1 == ToEventFullDto(e', db.categories)
  {
    if eventId !in db.events then Failure(NotFound)
    else
      var e := db.events[eventId];
      if PatchDateTooSoon(p, now, 1) then Failure(InvalidPathVariable)
      else if e.state != EventState.Pending then
        (if action.None? then Failure(NullDereference) else Failure(InvalidEventStateOrDate))
      else
        var acted := e.(state := AdminTransition(e.state, action), publishedOn := Some(now));
        var category := ResolvePatchCategory(db, p.category);
        if category.Failure? then Failure(category.error)
        else
          var merged := MergePatch(p, acted, category.value, p.location, acted.initiator);
          Success((db.(events := db.events[eventId := merged]), ToEventFullDto(merged, db.categories)))
  }

  /** `updateUserEvent(userId, eventId, dto)`. Checks run in this order: the
      event, the date lead of two hours, the state (a PUBLISHED event cannot
      change), the user, the category. The action is applied and the merged
      event stored under the same id. The caller is not checked against the
      event's initiator. */
  function UpdateUserEvent(db: Db, userId: int, eventId: int, p: EventPatch, action: Option<UserAction>, now: Time)
    : (r: Result<(Db, EventFullDto)>)
    ensures eventId !in db.events ==> r == Failure(NotFound)
    ensures eventId in db.events && PatchDateTooSoon(p, now, 2) ==> r == Failure(InvalidPathVariable)
    ensures eventId in db.events && !PatchDateTooSoon(p, now, 2) && db.events[eventId].state == Published ==>
              r == Failure(InvalidEventStateOrDate)
    ensures r.Failure? && eventId in db.events && db.events[eventId].state != Published && !PatchDateTooSoon(p, now, 2) ==>
              r.error == NotFound
    ensures r.Success? <==>
              && eventId in db.events
              && !PatchDateTooSoon(p, now, 2)
              && db.events[eventId].state != Published
              && userId in db.users
              && (p.category.Some? ==> p.category.value in db.categories)
    ensures r.Success? ==> eventId in r.value.0.events
    ensures r.Success? ==>
              var e, e' := db.events[eventId], r.value.0.events[eventId];
              && r.value.0 == db.(events := db.events[eventId := e'])
              && e'.state == UserTransition(e.state, action)
              && e'.id == e.id
              && e'.initiator == (if e.initiator.Some? then e.initiator else Some(userId))
              && SameMergedFields(e', MergePatch(p, e, p.category, p.location, Some(userId)))
              && e'.confirmedRequests == 0 && e'.publishedOn.None?
              && r.value.1 == ToEventFullDto(e', db.categories)
  {
    if eventId !in db.events then Failure(NotFound)
    else
      var e := db.events[eventId];
      if PatchDateTooSoon(p, now, 2) then Failure(InvalidPathVariable)
      else if e.state == Published then Failure(InvalidEventStateOrDate)
      else if userId !in db.users then Failure(NotFound)
      else
        var category := ResolvePatchCategory(db, p.category);
        if category.Failure? then Failure(category.error)
        else
          var acted := e.(state := UserTransition(e.state, action));
          var merged := MergePatch(p, acted, category.value, p.location, Some(userId));
          Success((db.(events := db.events[eventId := merged]), ToEventFullDto(merged, db.categories)))
  }

  /** The per-character fold of `String.equalsIgnoreCase`, restricted to
      what decides a comparison against the two constants "EVENT_DATE" and
      "VIEWS": the ASCII letters, the dotless and dotted capital-I forms
      (which match 'I'), and the long s (which matches 'S'). Characters that
      fold onto a letter absent from both constants are left unchanged, so
      the model is not a general case fold. */
  function FoldCase(c: char): (u: char)
    ensures 'a' <= c <= 'z' ==> u as int == c as int - 32
    ensures 'A' <= u <= 'Z' || u == c
  {
    if 'a' <= c <= 'z' then (c as int - 32) as char
    else if c == '\U{0131}' || c == '\U{0130}' then 'I'
    else if c == '\U{017F}' then 'S'
    else c
  }

  /** `s.equalsIgnoreCase(t)`. */
  predicate EqualsIgnoreCase(s: string, t: string) {
    |s| == |t| && forall i :: 0 <= i < |s| ==> FoldCase(s[i]) == FoldCase(t[i])
  }

  /** The sort parameter of the public search. */
  function ParseSort(sort: string): (r: Result<SortKey>)
    ensures r.Failure? ==> r.error == InvalidPathVariable
    ensures r.Success? ==> |sort| == |"EVENT_DATE"| || |sort| == |"VIEWS"|
    ensures r == Success(ByEventDate) <==> EqualsIgnoreCase(sort, "EVENT_DATE")
    ensures r == Success(ByViews) <==> EqualsIgnoreCase(sort, "VIEWS")
  {
    if EqualsIgnoreCase(sort, "EVENT_DATE") then Success(ByEventDate)
    else if EqualsIgnoreCase(sort, "VIEWS") then Success(ByViews)
    else Failure(InvalidPathVariable)
  }

  /** `stream().anyMatch(id -> id <= 0)`, element by element. */
  predicate AnyNonPositive(ids: seq<int>) {
    |ids| > 0 && (ids[0] <= 0 || AnyNonPositive(ids[1..]))
  }

  /** An id array the searches accept: absent, or with every id positive. */
  predicate ValidIds(ids: Option<seq<int>>) {
    ids.None? || forall i :: 0 <= i < |ids.value| ==> ids.value[i] > 0
  }

  /** The element-by-element scan finds a non-positive id exactly when one exists. */
  lemma {:induction false} AnyNonPositiveIff(ids: seq<int>)
    ensures AnyNonPositive(ids) <==> exists i :: 0 <= i < |ids| && ids[i] <= 0
  {
    if |ids| > 0 {
      AnyNonPositiveIff(ids[1..]);
      if exists i :: 0 <= i < |ids[1..]| && ids[1..][i] <= 0 {
        var i :| 0 <= i < |ids[1..]| && ids[1..][i] <= 0;
        assert ids[i + 1] <= 0;
      }
      if exists i :: 0 <= i < |ids| && ids[i] <= 0 {
        var i :| 0 <= i < |ids| && ids[i] <= 0;
        if i > 0 {
          assert ids[1..][i - 1] <= 0;
        }
      }
    }
  }

  /** The id check both searches make on one array. */
  function CheckIds(ids: Option<seq<int>>): (r: Result<()>)
    ensures r.Success? <==> ValidIds(ids)
    ensures r.Failure? ==> r.error == InvalidPathVariable
  {
    if ids.None? then Success(())
    else
      AnyNonPositiveIff(ids.value);
      if AnyNonPositive(ids.value) then Failure(InvalidPathVariable) else Success(())
  }

  /** The parameter checks of `findPublicEvents`: the sort first, then the
      categories. The query itself is not modelled. */
  function CheckPublicSearch(sort: string, categories: Option<seq<int>>): (r: Result<SortKey>)
    ensures r.Success? <==> ParseSort(sort).Success? && ValidIds(categories)
    ensures r.Success? ==> r == ParseSort(sort)
    ensures r.Failure? ==> r.error == InvalidPathVariable
  {
    var key := ParseSort(sort);
    if key.Failure? then key
    else if CheckIds(categories).Failure? then Failure(InvalidPathVariable)
    else key
  }

  /** The parameter checks of `findAdminEvents`: the categories, then the
      users. The query itself is not modelled. */
  function CheckAdminSearch(users: Option<seq<int>>, categories: Option<seq<int>>): (r: Result<()>)
    ensures r.Success? <==> ValidIds(categories) && ValidIds(users)
    ensures r.Failure? ==> r.error == InvalidPathVariable
  {
    var c := CheckIds(categories);
    if c.Failure? then c else CheckIds(users)
  }
}

=== FILE: optional.dfy ===
/** Nullable values. The Java source uses `null` for "field not supplied";
    the model writes that as `None`. */
module Optional {

  datatype Option<+T> = None | Some(value: T) {

    /** The wrapped value, or `fallback` when absent: the "a null field keeps
        the old value" rule every merge mapper follows. */
    function GetOr(fallback: T): T {
      match this
      case Some(v) => v
      case None => fallback
    }
  }
}

=== FILE: place_mapper.dfy ===
/** Conversions between places and their DTOs. */
module PlaceMapper {
  import opened Optional
  import opened Domain

  datatype NewPlaceDto = NewPlaceDto(name: Option<string>, lat: Option<real>, lon: Option<real>, radius: Option<real>)

  datatype PlaceDto = PlaceDto(
    id: Option<int>,
    name: Option<string>,
    lat: Option<real>,
    lon: Option<real>,
    radius: Option<real>)

  /** A DTO with every field null. */
  const EmptyPlaceDto: PlaceDto := PlaceDto(None, None, None, None, None)

  /** `toPlace(NewPlaceDto)`: the four fields as given, no id yet. */
  function ToPlace(d: NewPlaceDto): (p: Place)
    ensures p.id.None?
    ensures p.name == d.name && p.lat == d.lat && p.lon == d.lon && p.radius == d.radius
  {
    Place(None, d.name, d.lat, d.lon, d.radius)
  }

  /** `toPlace(place, dto)`: a null DTO field keeps the stored value, a
      non-null one replaces it; the id is the stored one. */
  function MergePlace(p: Place, d: PlaceDto): (r: Place)
    ensures r.id == p.id
    ensures d.name.None? ==> r.name == p.name
    ensures d.name.Some? ==> r.name == d.name
    ensures d.lat.None? ==> r.lat == p.lat
    ensures d.lat.Some? ==> r.lat == d.lat
    ensures d.lon.None? ==> r.lon == p.lon
    ensures d.lon.Some? ==> r.lon == d.lon
    ensures d.radius.None? ==> r.radius == p.radius
    ensures d.radius.Some? ==> r.radius == d.radius
  {
    Place(
      p.id,
      if d.name.None? then p.name else d.name,
      if d.lat.None? then p.lat else d.lat,
      if d.lon.None? then p.lon else d.lon,
      if d.radius.None? then p.radius else d.radius)
  }

  /** `toPlace(placeId, dto)`: the given id and the DTO's fields verbatim,
      nulls included; the DTO's own id is ignored. */
  function ToPlaceWithId(placeId: int, d: PlaceDto): (p: Place)
    ensures p.id == Some(placeId)
    ensures p.name == d.name && p.lat == d.lat && p.lon == d.lon && p.radius == d.radius
  {
    Place(Some(placeId), d.name, d.lat, d.lon, d.radius)
  }

  function ToPlaceDto(p: Place): (d: PlaceDto)
    ensures d.id == p.id
    ensures d.name == p.name && d.lat == p.lat && d.lon == p.lon && d.radius == p.radius
  {
    PlaceDto(p.id, p.name, p.lat, p.lon, p.radius)
  }

  /** Building a place under an id and rendering it gives back the DTO with
      its id replaced by that id. */
  lemma PlaceRoundTrip(placeId: int, d: PlaceDto)
    ensures ToPlaceDto(ToPlaceWithId(placeId, d)) == d.(id := Some(placeId))
  {
  }

  /** Rendering and rebuilding under the stored id is the identity. */
  lemma PlaceDtoRoundTrip(p: Place)
    requires p.id.Some?
    ensures ToPlaceWithId(p.id.value, ToPlaceDto(p)) == p
  {
  }

  /** Merging an all-null DTO changes nothing. */
  lemma MergeEmptyPlaceDto(p: Place)
    ensures MergePlace(p, EmptyPlaceDto) == p
  {
  }

  /** When every field of the DTO is present, the merge is the verbatim
      overload under the stored id. */
  lemma MergeFullPlaceDto(p: Place, d: PlaceDto)
    requires p.id.Some?
    requires d.name.Some? && d.lat.Some? && d.lon.Some? && d.radius.Some?
    ensures MergePlace(p, d) == ToPlaceWithId(p.id.value, d)
  {
  }

  /** Merging the same DTO twice is the same as merging it once. */
  lemma MergePlaceIdempotent(p: Place, d: PlaceDto)
    ensures MergePlace(MergePlace(p, d), d) == MergePlace(p, d)
  {
  }
}

=== FILE: place_service.dfy ===
/** Place administration over the place store. */
module PlaceService {
  import opened Optional
  import opened Domain
  import opened PlaceMapper

  /** `createPlace(dto)`: the mapped place saved under the id the store assigns. */
  function CreatePlace(db: Db, d: NewPlaceDto, freshId: int): (r: (Db, PlaceDto))
    requires freshId !in db.places
    ensures freshId in r.0.places && r.0.places == db.places[freshId := r.0.places[freshId]]
    ensures r.0 == db.(places := r.0.places)
    ensures r.1 == ToPlaceDto(r.0.places[freshId]) && r.1.id == Some(freshId)
    ensures r.1.name == d.name && r.1.lat == d.lat && r.1.lon == d.lon && r.1.radius == d.radius
  {
    var saved := ToPlace(d).(id := Some(freshId));
    (db.(places := db.places[freshId := saved]), ToPlaceDto(saved))
  }

  /** `updatePlace(placeId, dto)`: the null-keeping merge stored under the same id. */
  function UpdatePlace(db: Db, placeId: int, d: PlaceDto): (r: Result<(Db, PlaceDto)>)
    ensures placeId !in db.places ==> r == Failure(NotFound)
    ensures r.Success? <==> placeId in db.places
    ensures r.Success? ==>
              && r.value.0 == db.(places := db.places[placeId := MergePlace(db.places[placeId], d)])
              && r.value.1 == ToPlaceDto(MergePlace(db.places[placeId], d))
              && r.value.1.id == db.places[placeId].id
  {
    if placeId !in db.places then Failure(NotFound)
    else
      var merged := MergePlace(db.places[placeId], d);
      Success((db.(places := db.places[placeId := merged]), ToPlaceDto(merged)))
  }

  /** `deletePlace(placeId)`: exactly that place disappears. */
  function DeletePlace(db: Db, placeId: int): (r: Result<Db>)
    ensures placeId !in db.places ==> r == Failure(NotFound)
    ensures r.Success? <==> placeId in db.places
    ensures r.Success? ==>
              && r.value.places.Keys == db.places.Keys - {placeId}
              && (forall k :: k in r.value.places ==> r.value.places[k] == db.places[k])
              && r.value == db.(places := r.value.places)
  {
    if placeId !in db.places then Failure(NotFound)
    else Success(db.(places := db.places - {placeId}))
  }

  /** `getPlaceById(placeId)`. */
  function GetPlaceById(db: Db, placeId: int): (r: Result<PlaceDto>)
    ensures r.Success? <==> placeId in db.places
    ensures placeId !in db.places ==> r == Failure(NotFound)
    ensures r.Success? ==> r.value == ToPlaceDto(db.places[placeId])
  {
    if placeId !in db.places then Failure(NotFound)
    else Success(ToPlaceDto(db.places[placeId]))
  }

  /** Reading a place right after creating it gives the view the creation
      returned; deleting it again restores the store, after which it can be
      neither read, updated nor deleted. */
  lemma CreateThenReadAndDeletePlace(db: Db, d: NewPlaceDto, freshId: int, u: PlaceDto)
    requires freshId !in db.places
    ensures var (db1, view) := CreatePlace(db, d, freshId);
            && GetPlaceById(db1, freshId) == Success(view)
            && DeletePlace(db1, freshId) == Success(db)
            && GetPlaceById(DeletePlace(db1, freshId).value, freshId) == Failure(NotFound)
            && UpdatePlace(DeletePlace(db1, freshId).value, freshId, u) == Failure(NotFound)
            && DeletePlace(DeletePlace(db1, freshId).value, freshId) == Failure(NotFound)
  {
    var (db1, view) := CreatePlace(db, d, freshId);
    assert db1.places - {freshId} == db.places;
  }

  /** Reading a place back after an update returns what the update answered. */
  lemma GetAfterUpdatePlace(db: Db, placeId: int, d: PlaceDto)
    requires placeId in db.places
    ensures var u := UpdatePlace(db, placeId, d);
            u.Success? && GetPlaceById(u.value.0, placeId) == Success(u.value.1)
  {
  }

  /** An update that carries no field leaves the store unchanged. */
  lemma UpdatePlaceWithNothing(db: Db, placeId: int)
    requires placeId in db.places
    ensures var u := UpdatePlace(db, placeId, EmptyPlaceDto);
            u.Success? && u.value.0 == db
  {
    MergeEmptyPlaceDto(db.places[placeId]);
  }

  /** After a delete, the place can no longer be read, and other places still can. */
  lemma GetAfterDeletePlace(db: Db, placeId: int, other: int)
    requires placeId in db.places && other in db.places && other != placeId
    ensures var d := DeletePlace(db, placeId);
            && d.Success?
            && GetPlaceById(d.value, placeId) == Failure(NotFound)
            && GetPlaceById(d.value, other) == GetPlaceById(db, other)
  {
  }
}

=== FILE: request_mapper.dfy ===
/** Conversions between participation requests and their DTO. */
module RequestMapper {
  import opened Optional
  import opened Domain

  /** `ParticipationRequestDto`: used as input with only the status set, and
      as output with the user and event reduced to their ids. */
  datatype RequestDto = RequestDto(
    id: Option<int>,
    created: Option<Time>,
    event: Option<int>,
    requester: Option<int>,
    status: RequestStatus)

  /** `toRequest`: an unsaved request (no id) with the DTO's status and the
      given user, event and creation instant. */
  function ToRequest(d: RequestDto, user: int, event: int, created: Time): (q: Request)
    ensures q.id.None?
    ensures q.status == d.status && q.requester == user && q.event == event && q.created == created
  {
    Request(None, user, event, created, d.status)
  }

  /** `toRequestDto`: id and status as stored, user and event by id. */
  function ToRequestDto(q: Request): (d: RequestDto)
    ensures d.id == q.id && d.status == q.status && d.created == Some(q.created)
    ensures d.event == Some(q.event) && d.requester == Some(q.requester)
  {
    RequestDto(q.id, Some(q.created), Some(q.event), Some(q.requester), q.status)
  }

  /** Building a request from a DTO and rendering it again gives back the DTO's
      status, together with the parties and instant that were supplied. */
  lemma RequestRoundTrip(d: RequestDto, user: int, event: int, created: Time)
    requires d.id.None?
    ensures ToRequestDto(ToRequest(d, user, event, created))
         == d.(created := Some(created), event := Some(event), requester := Some(user))
  {
  }

  /** The rendering loses nothing: two requests with the same DTO are equal. */
  lemma ToRequestDtoInjective(q1: Request, q2: Request)
    requires ToRequestDto(q1) == ToRequestDto(q2)
    ensures q1 == q2
  {
    assert q1.created == ToRequestDto(q1).created.value;
  }

  /** The list overload: one DTO per request, in the same order. */
  function ToRequestDtos(qs: seq<Request>): (ds: seq<RequestDto>)
    ensures |ds| == |qs|
    ensures forall i :: 0 <= i < |qs| ==> ds[i] == ToRequestDto(qs[i])
  {
    if |qs| == 0 then [] else [ToRequestDto(qs[0])] + ToRequestDtos(qs[1..])
  }

  /** Converting a concatenation converts each part in place. */
  lemma {:induction false} ToRequestDtosAppend(a: seq<Request>, b: seq<Request>)
    ensures ToRequestDtos(a + b) == ToRequestDtos(a) + ToRequestDtos(b)
  {
    if |a| == 0 {
      assert a + b == b;
    } else {
      assert (a + b)[1..] == a[1..] + b;
      ToRequestDtosAppend(a[1..], b);
    }
  }
}

=== FILE: request_properties.dfy ===
/** Properties of the admission engine that relate its operations to each
    other or to the invariants the design intends: capacity, one request per
    user and event, the cutover, idempotence, and where the code as written
    departs from the intended ledger. */
module RequestProperties {
  import opened Optional
  import opened Domain
  import opened RequestMapper
  import opened RequestService
  import opened EventMapper
  import EventService

  /** Ids of the event's requests that are CONFIRMED: what the ledger is meant to count. */
  function ConfirmedOf(reqs: map<int, Request>, eventId: int): set<int> {
    set k | k in reqs && reqs[k].event == eventId && reqs[k].status == Confirmed
  }

  // ---------------------------------------------------------------------
  // new events
  // ---------------------------------------------------------------------

  /** A new event without a limit admits requests at once; one with a limit
      and no moderation flag queues them, since moderation defaults to on. */
  lemma NewEventModerationDefaults(d: NewEventDto, category: Option<int>, location: Option<Location>)
    ensures d.participantLimit.None? ==> AutoConfirms(ToNewEvent(d, category, location))
    ensures d.participantLimit.Some? && d.participantLimit.value > 0 && d.requestModeration.None? ==>
              !AutoConfirms(ToNewEvent(d, category, location))
  {
  }

  /** A new event is PENDING, so nobody can ask to join it until an
      administrator publishes it; once published, any other registered user
      who has not asked before is admitted. */
  lemma NewEventOpensOnPublication(db: Db, userId: int, d: NewEventDto, now: Time, freshId: int,
                                   requester: int, requestId: int, later: Time)
    requires freshId !in db.events && requestId !in db.requests
    requires EventService.CreateEvent(db, userId, d, now, freshId).Success?
    ensures var db1 := EventService.CreateEvent(db, userId, d, now, freshId).value.0;
            CreateRequest(db1, requester, freshId, requestId, later) == Failure(InvalidParticipationRequest)
    ensures var db1 := EventService.CreateEvent(db, userId, d, now, freshId).value.0;
            var pub := EventService.UpdateEventByAdmin(db1, freshId, EmptyPatch, Some(EventService.PublishEvent), later);
            && pub.Success?
            && (requester != userId && requester in db.users && RequestsOf(db.requests, requester, freshId) == {} ==>
                  CreateRequest(pub.value.0, requester, freshId, requestId, later).Success?)
  {
  }

  // ---------------------------------------------------------------------
  // create
  // ---------------------------------------------------------------------

  /** Creation keeps every user to at most one request per event. */
  lemma CreatePreservesOnePerPair(db: Db, userId: int, eventId: int, freshId: int, now: Time)
    requires freshId !in db.requests
    requires OnePerPair(db.requests)
    ensures var r := CreateRequest(db, userId, eventId, freshId, now);
            r.Success? ==> OnePerPair(r.value.0.requests)
  {
    var r := CreateRequest(db, userId, eventId, freshId, now);
    if r.Success? {
      var reqs' := r.value.0.requests;
      forall k1, k2 | k1 in reqs' && k2 in reqs' && k1 != k2
        ensures reqs'[k1].requester != reqs'[k2].requester || reqs'[k1].event != reqs'[k2].event
      {
        if k1 == freshId {
          assert k2 !in RequestsOf(db.requests, userId, eventId);
        } else if k2 == freshId {
          assert k1 !in RequestsOf(db.requests, userId, eventId);
        }
      }
    }
  }

  /** Creation never takes a limited event past its limit, in either branch:
      the up-front check leaves room for the one confirmation it may add. */
  lemma CreatePreservesCapacity(db: Db, userId: int, eventId: int, freshId: int, now: Time)
    requires freshId !in db.requests
    requires forall k :: k in db.events ==> WithinLimit(db.events[k])
    ensures var r := CreateRequest(db, userId, eventId, freshId, now);
            r.Success? ==> forall k :: k in r.value.0.events ==> WithinLimit(r.value.0.events[k])
  {
  }

  /** An unlimited event confirms every request it admits, and its ledger
      never gates admission. */
  lemma UnlimitedEventAutoConfirms(db: Db, userId: int, eventId: int, freshId: int, now: Time)
    requires freshId !in db.requests
    requires eventId in db.events && db.events[eventId].participantLimit == 0
    requires db.events[eventId].initiator != Some(userId) && db.events[eventId].state == EventState.Published
    requires RequestsOf(db.requests, userId, eventId) == {} && userId in db.users
    ensures var r := CreateRequest(db, userId, eventId, freshId, now);
            && r.Success?
            && r.value.1.status == Confirmed
            && r.value.0.events[eventId].confirmedRequests == db.events[eventId].confirmedRequests + 1
  {
  }

  /** A moderated, limited event admits requests as PENDING and leaves its ledger alone. */
  lemma ModeratedEventQueues(db: Db, userId: int, eventId: int, freshId: int, now: Time)
    requires freshId !in db.requests
    requires eventId in db.events && db.events[eventId].requestModeration && db.events[eventId].participantLimit > 0
    ensures var r := CreateRequest(db, userId, eventId, freshId, now);
            r.Success? ==> r.value.1.status == RequestStatus.Pending && r.value.0.events[eventId] == db.events[eventId]
  {
  }

  /** Without moderation a limited event confirms while it has room, and the
      request that would exceed the limit is refused. */
  lemma UnmoderatedEventFillsThenRefuses(db: Db, userId: int, eventId: int, freshId: int, now: Time)
    requires freshId !in db.requests
    requires eventId in db.events && !db.events[eventId].requestModeration && db.events[eventId].participantLimit > 0
    ensures var r := CreateRequest(db, userId, eventId, freshId, now);
            && (db.events[eventId].confirmedRequests >= db.events[eventId].participantLimit ==>
                  r == Failure(InvalidParticipationRequest))
            && (r.Success? ==> r.value.1.status == Confirmed
                               && r.value.0.events[eventId].confirmedRequests <= db.events[eventId].participantLimit)
  {
  }

  /** With a limit of one, two successive admissions to the same event never
      both come out CONFIRMED. */
  lemma LimitOneConfirmsAtMostOne(db: Db, u1: int, u2: int, eventId: int, id1: int, id2: int, now: Time)
    requires id1 !in db.requests && id2 !in db.requests && id1 != id2
    requires eventId in db.events && db.events[eventId].participantLimit == 1
    ensures var r1 := CreateRequest(db, u1, eventId, id1, now);
            r1.Success? ==>
              var r2 := CreateRequest(r1.value.0, u2, eventId, id2, now);
              !(r2.Success? && r1.value.1.status == Confirmed && r2.value.1.status == Confirmed)
  {
    var r1 := CreateRequest(db, u1, eventId, id1, now);
    if r1.Success? {
      var db1 := r1.value.0;
      assert id2 !in db1.requests;
      var r2 := CreateRequest(db1, u2, eventId, id2, now);
      if r1.value.1.status == Confirmed {
        assert db1.events[eventId].confirmedRequests >= 1;
        assert LimitReached(db1.events[eventId]);
      }
    }
  }

  // ---------------------------------------------------------------------
  // cancel
  // ---------------------------------------------------------------------

  /** A canceled request still counts as "already requested": the same user
      can never apply to that event again. */
  lemma CancelThenCreateFails(db: Db, userId: int, requestId: int, freshId: int, now: Time)
    requires requestId in db.requests && db.requests[requestId].requester == userId
    requires freshId !in db.requests
    ensures var c := CancelRequest(db, userId, requestId);
            && c.Success?
            && CreateRequest(c.value.0, userId, db.requests[requestId].event, freshId, now).Failure?
  {
    var c := CancelRequest(db, userId, requestId);
    var eventId := db.requests[requestId].event;
    assert HasAnyRequest(db.requests, userId);
    assert requestId in RequestsOf(c.value.0.requests, userId, eventId);
  }

  /** Any user who has made some request can cancel anyone's request. */
  lemma CancelIgnoresOwnership(db: Db, owner: int, other: int, requestId: int, otherRequest: int)
    requires requestId in db.requests && db.requests[requestId].requester == owner
    requires otherRequest in db.requests && db.requests[otherRequest].requester == other
    ensures var c := CancelRequest(db, other, requestId);
            c.Success? && c.value.0.requests[requestId].status == RequestStatus.Canceled
  {
  }

  /** Canceling a CONFIRMED request leaves the ledger where it was, while the
      event's CONFIRMED requests drop by one: ledger and requests drift apart. */
  lemma {:induction false} CancelConfirmedKeepsLedger(db: Db, userId: int, requestId: int)
    requires requestId in db.requests && db.requests[requestId].status == Confirmed
    requires HasAnyRequest(db.requests, userId)
    requires db.requests[requestId].event in db.events
    ensures var c, eventId := CancelRequest(db, userId, requestId), db.requests[requestId].event;
            && c.Success?
            && c.value.0.events[eventId].confirmedRequests == db.events[eventId].confirmedRequests
            && |ConfirmedOf(c.value.0.requests, eventId)| + 1 == |ConfirmedOf(db.requests, eventId)|
  {
    var c := CancelRequest(db, userId, requestId);
    var eventId := db.requests[requestId].event;
    var before, after := ConfirmedOf(db.requests, eventId), ConfirmedOf(c.value.0.requests, eventId);
    assert after == before - {requestId};
    assert requestId in before;
  }

  // ---------------------------------------------------------------------
  // bulk update
  // ---------------------------------------------------------------------

  /** Only fetched requests that were PENDING change, and none of those stays PENDING. */
  lemma BulkUpdateTouchesOnlyPending(db: Db, userId: int, eventId: int, order: seq<int>, target: RequestStatus)
    requires Fetched(db.requests, order)
    ensures var r := UpdateEventRequests(db, userId, eventId, Some(order), Some(target));
            r.Success? ==>
              && (forall k :: k in db.requests && (k !in order || db.requests[k].status != RequestStatus.Pending)
                    ==> r.value.0.requests[k] == db.requests[k])
              && (forall k :: k in order && db.requests[k].status == RequestStatus.Pending
                    ==> r.value.0.requests[k].status != RequestStatus.Pending
                        && r.value.0.requests[k] == db.requests[k].(status := r.value.0.requests[k].status))
  {
    var r := UpdateEventRequests(db, userId, eventId, Some(order), Some(target));
    if r.Success? {
      var P := PendingOf(db.requests, order);
      forall k | k in order && db.requests[k].status == RequestStatus.Pending
        ensures r.value.0.requests[k].status != RequestStatus.Pending
        ensures r.value.0.requests[k] == db.requests[k].(status := r.value.0.requests[k].status)
      {
        assert k in P;
        var i :| 0 <= i < |P| && P[i] == k;
      }
    }
  }

  /** Capacity: when the event does not auto-confirm, a bulk update never
      leaves the ledger above the limit. */
  lemma BulkUpdateRespectsLimit(db: Db, userId: int, eventId: int, order: seq<int>, target: RequestStatus)
    requires Fetched(db.requests, order)
    requires eventId in db.events && !AutoConfirms(db.events[eventId])
    ensures var r := UpdateEventRequests(db, userId, eventId, Some(order), Some(target));
            r.Success? ==> r.value.0.events[eventId].confirmedRequests <= db.events[eventId].participantLimit
  {
  }

  /** The ledger grows by exactly the number of fetched requests that went
      from PENDING to CONFIRMED. */
  lemma BulkUpdateCountsConfirmations(db: Db, userId: int, eventId: int, order: seq<int>, target: RequestStatus)
    requires Fetched(db.requests, order)
    ensures var r := UpdateEventRequests(db, userId, eventId, Some(order), Some(target));
            r.Success? ==>
              r.value.0.events[eventId].confirmedRequests
              == db.events[eventId].confirmedRequests + NewlyConfirmed(db.requests, r.value.0.requests, order)
  {
  }

  /** The cutover, for a moderated limited event and a CONFIRMED target: the
      pending requests are confirmed in fetch order while there is room, and
      every later one becomes CANCELED. */
  lemma BulkUpdateCutover(db: Db, userId: int, eventId: int, order: seq<int>)
    requires Fetched(db.requests, order)
    requires eventId in db.events && !AutoConfirms(db.events[eventId])
    ensures var r, e, P := UpdateEventRequests(db, userId, eventId, Some(order), Some(Confirmed)),
                           db.events[eventId], PendingOf(db.requests, order);
            r.Success? ==>
              forall i :: 0 <= i < |P| ==>
                r.value.0.requests[P[i]].status
                == (if i < e.participantLimit - e.confirmedRequests then Confirmed else RequestStatus.Canceled)
  {
  }

  /** Any target other than CONFIRMED rejects every pending fetched request
      and leaves the event as it was. */
  lemma BulkUpdateRejects(db: Db, userId: int, eventId: int, order: seq<int>, target: RequestStatus)
    requires Fetched(db.requests, order)
    requires target != Confirmed
    ensures var r := UpdateEventRequests(db, userId, eventId, Some(order), Some(target));
            r.Success? ==>
              && r.value.0.events == db.events
              && forall k :: k in order && db.requests[k].status == RequestStatus.Pending
                   ==> r.value.0.requests[k].status == Rejected
  {
    var r := UpdateEventRequests(db, userId, eventId, Some(order), Some(target));
    if r.Success? {
      var P := PendingOf(db.requests, order);
      forall k | k in order && db.requests[k].status == RequestStatus.Pending
        ensures r.value.0.requests[k].status == Rejected
      {
        assert k in P;
        var i :| 0 <= i < |P| && P[i] == k;
      }
      assert r.value.0.events[eventId] == db.events[eventId];
    }
  }

  /** When the event auto-confirms there is no cutover: a CONFIRMED target
      confirms every pending fetched request, with no limit check. */
  lemma BulkUpdateAutoConfirmsAll(db: Db, userId: int, eventId: int, order: seq<int>)
    requires Fetched(db.requests, order)
    requires eventId in db.events && AutoConfirms(db.events[eventId])
    ensures var r := UpdateEventRequests(db, userId, eventId, Some(order), Some(Confirmed));
            r.Success? ==>
              forall k :: k in order && db.requests[k].status == RequestStatus.Pending
                ==> r.value.0.requests[k].status == Confirmed
  {
    var r := UpdateEventRequests(db, userId, eventId, Some(order), Some(Confirmed));
    if r.Success? {
      var P := PendingOf(db.requests, order);
      forall k | k in order && db.requests[k].status == RequestStatus.Pending
        ensures r.value.0.requests[k].status == Confirmed
      {
        assert k in P;
        var i :| 0 <= i < |P| && P[i] == k;
      }
    }
  }

  /** The requests stored under `ks`, in that order: a list the repository
      may return. */
  function Rows(reqs: map<int, Request>, ks: seq<int>): (qs: seq<Request>)
    requires forall i :: 0 <= i < |ks| ==> ks[i] in reqs
    ensures |qs| == |ks| && forall i :: 0 <= i < |ks| ==> qs[i] == reqs[ks[i]]
  {
    seq(|ks|, i requires 0 <= i < |ks| => reqs[ks[i]])
  }

  /** The re-read is the list conversion of whatever order the repository
      returns the event's requests in: for any list holding exactly the
      event's requests in `status`, its converted elements are `WithStatus`. */
  lemma WithStatusIsListConversion(reqs: map<int, Request>, eventId: int, status: RequestStatus, ks: seq<int>)
    requires forall i :: 0 <= i < |ks| ==> ks[i] in reqs
    requires forall k :: k in ks <==> k in reqs && reqs[k].event == eventId && reqs[k].status == status
    ensures (set d | d in ToRequestDtos(Rows(reqs, ks))) == WithStatus(reqs, eventId, status)
  {
    var ds := ToRequestDtos(Rows(reqs, ks));
    forall d | d in WithStatus(reqs, eventId, status)
      ensures d in ds
    {
      var k :| k in reqs && reqs[k].event == eventId && reqs[k].status == status && d == ToRequestDto(reqs[k]);
      var i :| 0 <= i < |ks| && ks[i] == k;
      assert ds[i] == d;
    }
    forall d | d in ds
      ensures d in WithStatus(reqs, eventId, status)
    {
      var i :| 0 <= i < |ds| && ds[i] == d;
      var k := ks[i];
      assert k in ks;
      assert d == ToRequestDto(reqs[k]);
    }
  }

  /** The answer lists are exactly the event's CONFIRMED and exactly its
      REJECTED requests after the update: every listed DTO renders such a
      stored request, every such request is listed, the two never share a
      request, and cut-over CANCELED requests appear in neither. */
  lemma BulkUpdateResultPartition(db: Db, userId: int, eventId: int, order: seq<int>, target: Option<RequestStatus>)
    requires Fetched(db.requests, order)
    ensures var r := UpdateEventRequests(db, userId, eventId, Some(order), target);
            r.Success? ==>
              var reqs, res := r.value.0.requests, r.value.1;
              && res.confirmed !! res.rejected
              && (forall k :: k in reqs && reqs[k].status == RequestStatus.Canceled
                    ==> ToRequestDto(reqs[k]) !in res.confirmed && ToRequestDto(reqs[k]) !in res.rejected)
              && (forall k :: k in reqs && reqs[k].event == eventId && reqs[k].status == Confirmed
                    ==> ToRequestDto(reqs[k]) in res.confirmed)
              && (forall k :: k in reqs && reqs[k].event == eventId && reqs[k].status == Rejected
                    ==> ToRequestDto(reqs[k]) in res.rejected)
              && (forall d :: d in res.confirmed ==>
                    exists k :: k in reqs && reqs[k].event == eventId && reqs[k].status == Confirmed && d == ToRequestDto(reqs[k]))
              && (forall d :: d in res.rejected ==>
                    exists k :: k in reqs && reqs[k].event == eventId && reqs[k].status == Rejected && d == ToRequestDto(reqs[k]))
  {
  }

  /** A null status fails as soon as a fetched request is pending, and is
      harmless when none is: the store is then left as it was. */
  lemma BulkUpdateNullStatus(db: Db, userId: int, eventId: int, order: seq<int>)
    requires Fetched(db.requests, order)
    requires eventId in db.events && !LimitReached(db.events[eventId])
    ensures var r := UpdateEventRequests(db, userId, eventId, Some(order), None);
            && (r.Failure? <==> exists i :: 0 <= i < |order| && db.requests[order[i]].status == RequestStatus.Pending)
            && (r.Failure? ==> r.error == NullDereference)
            && (r.Success? ==> r.value.0 == db)
  {
    if exists i :: 0 <= i < |order| && db.requests[order[i]].status == RequestStatus.Pending {
      var i :| 0 <= i < |order| && db.requests[order[i]].status == RequestStatus.Pending;
      assert order[i] in PendingOf(db.requests, order);
    } else {
      PendingOfNone(db.requests, order);
    }
  }

  /** With no fetched request pending, the batch changes nothing. */
  lemma {:induction false} PendingOfNone(reqs: map<int, Request>, ids: seq<int>)
    requires forall i :: 0 <= i < |ids| ==> ids[i] in reqs && reqs[ids[i]].status != RequestStatus.Pending
    ensures PendingOf(reqs, ids) == []
  {
    if |ids| > 0 {
      PendingOfNone(reqs, ids[1..]);
    }
  }

  /** A bulk update that finds nothing pending leaves the store as it was. */
  lemma SettleNothingPending(db: Db, eventId: int, order: seq<int>, target: RequestStatus)
    requires CanUpdate(db, eventId, order)
    requires PendingOf(db.requests, order) == []
    ensures Settle(db, eventId, order, target) == db
  {
    var db' := Settle(db, eventId, order, target);
    assert db'.requests == db.requests;
    assert db'.events[eventId] == db.events[eventId];
    assert db'.events == db.events;
  }

  /** Re-running a bulk update with the same ids and target is a no-op: the
      first run left none of the fetched requests PENDING. */
  lemma BulkUpdateTwiceIsOnce(db: Db, userId: int, eventId: int, order: seq<int>, target: RequestStatus)
    requires Fetched(db.requests, order)
    ensures var r1 := UpdateEventRequests(db, userId, eventId, Some(order), Some(target));
            r1.Success? ==>
              && Fetched(r1.value.0.requests, order)
              && var r2 := UpdateEventRequests(r1.value.0, userId, eventId, Some(order), Some(target));
                 r2.Success? ==> r2.value.0 == r1.value.0
  {
    var r1 := UpdateEventRequests(db, userId, eventId, Some(order), Some(target));
    if r1.Success? {
      var db1 := r1.value.0;
      BulkUpdateTouchesOnlyPending(db, userId, eventId, order, target);
      forall i | 0 <= i < |order|
        ensures order[i] in db1.requests && db1.requests[order[i]].status != RequestStatus.Pending
      {
        assert order[i] in order;
      }
      PendingOfNone(db1.requests, order);
      var r2 := UpdateEventRequests(db1, userId, eventId, Some(order), Some(target));
      if r2.Success? {
        SettleNothingPending(db1, eventId, order, target);
      }
    }
  }

  // ---------------------------------------------------------------------
  // worked examples
  // ---------------------------------------------------------------------

  /** A published event with id 1, created by user 9. */
  function SampleEvent(limit: nat, moderated: bool, confirmed: nat): Event {
    Event(Some(1), "title", "annotation", "description", 0, limit, false, moderated,
          None, None, Some(9), EventState.Published, confirmed, 0, None, None)
  }

  /** A pending request of `user` for event 1. */
  function PendingRequest(id: int, user: int): Request {
    Request(Some(id), user, 1, 0, RequestStatus.Pending)
  }

  function SampleDb(e: Event): Db {
    Db(map[1 := e],
       map[10 := PendingRequest(10, 100), 11 := PendingRequest(11, 101), 12 := PendingRequest(12, 102)],
       {9, 100, 101, 102}, map[], map[], map[])
  }

  /** The three sample requests are fetched in order and all pending. */
  lemma SamplePending(limit: nat, moderated: bool)
    ensures var db := SampleDb(SampleEvent(limit, moderated, 0));
            && CanUpdate(db, 1, [10, 11, 12])
            && PendingOf(db.requests, [10, 11, 12]) == [10, 11, 12]
  {
    var db := SampleDb(SampleEvent(limit, moderated, 0));
    assert Fetched(db.requests, [10, 11, 12]);
    assert [10, 11, 12][1..] == [11, 12] && [11, 12][1..] == [12] && [12][1..] == [];
  }

  /** Confirming the three sample requests passes every up-front check, so
      the answer's store is the settled one. */
  lemma SampleBulkConfirm(limit: nat, moderated: bool)
    ensures var db := SampleDb(SampleEvent(limit, moderated, 0));
            && CanUpdate(db, 1, [10, 11, 12])
            && PendingOf(db.requests, [10, 11, 12]) == [10, 11, 12]
            && var r := UpdateEventRequests(db, 9, 1, Some([10, 11, 12]), Some(Confirmed));
               r.Success? && r.value.0 == Settle(db, 1, [10, 11, 12], Confirmed)
  {
    SamplePending(limit, moderated);
  }

  /** Limit 2, moderated, three pending requests A, B, C confirmed in that
      order: A and B are confirmed, C is cut over to CANCELED (not REJECTED),
      and the ledger stops at 2. */
  lemma CutoverExample()
    ensures var db := SampleDb(SampleEvent(2, true, 0));
            var r := UpdateEventRequests(db, 9, 1, Some([10, 11, 12]), Some(Confirmed));
            && r.Success?
            && r.value.0.requests[10].status == Confirmed
            && r.value.0.requests[11].status == Confirmed
            && r.value.0.requests[12].status == RequestStatus.Canceled
            && r.value.0.events[1].confirmedRequests == 2
  {
    SampleBulkConfirm(2, true);
    var db := SampleDb(SampleEvent(2, true, 0));
    var s := Settle(db, 1, [10, 11, 12], Confirmed);
    var P := PendingOf(db.requests, [10, 11, 12]);
    assert P[0] == 10 && P[1] == 11 && P[2] == 12;
    assert s.requests[P[0]].status == Confirmed;
    assert s.requests[P[1]].status == Confirmed;
    assert s.requests[P[2]].status == RequestStatus.Canceled;
  }

  /** Without moderation the bulk update does not re-check the limit: an
      event with limit 1 ends with a ledger of 3. Creation auto-confirms on
      such an event, and a published event can no longer be updated, so
      its own requests are never pending; the state is reached only when
      the ids sent belong to another event's pending requests, which the
      bulk update does not check. */
  lemma UnmoderatedBulkOvershoots()
    ensures var db := SampleDb(SampleEvent(1, false, 0));
            var r := UpdateEventRequests(db, 9, 1, Some([10, 11, 12]), Some(Confirmed));
            && r.Success?
            && r.value.0.events[1].confirmedRequests == 3
            && r.value.0.events[1].confirmedRequests > r.value.0.events[1].participantLimit
  {
    SampleBulkConfirm(1, false);
  }
}

=== FILE: request_service.dfy ===
/** Participation-request admission control: creating a request, canceling
    one, and the event owner's bulk confirm/reject with its capacity cutover.
    Each operation is one atomic step from a store state to the next. */
module RequestService {
  import opened Optional
  import opened Domain
  import opened RequestMapper

  /** The event already holds as many confirmations as its nonzero limit. */
  predicate LimitReached(e: Event) {
    e.participantLimit > 0 && e.participantLimit <= e.confirmedRequests
  }

  /** Requests to this event need no moderation: either moderation is off or
      the event is unlimited. */
  predicate AutoConfirms(e: Event) {
    !e.requestModeration || e.participantLimit == 0
  }

  /** The capacity invariant: a nonzero limit is never exceeded. */
  predicate WithinLimit(e: Event) {
    e.participantLimit > 0 ==> e.confirmedRequests <= e.participantLimit
  }

  /** Ids of the requests `user` has made for `event`, of any status. */
  function RequestsOf(reqs: map<int, Request>, user: int, event: int): set<int> {
    set k | k in reqs && reqs[k].requester == user && reqs[k].event == event
  }

  /** `user` has made at least one request, for any event. */
  predicate HasAnyRequest(reqs: map<int, Request>, user: int) {
    exists k :: k in reqs && reqs[k].requester == user
  }

  /** No user holds two requests for the same event. */
  predicate OnePerPair(reqs: map<int, Request>) {
    forall k1, k2 :: k1 in reqs && k2 in reqs && k1 != k2 ==>
      reqs[k1].requester != reqs[k2].requester || reqs[k1].event != reqs[k2].event
  }

  // ---------------------------------------------------------------------
  // createRequest
  // ---------------------------------------------------------------------

  /** `createRequest(userId, eventId)` at instant `now`; `freshId` is the id the
      store assigns to the saved request. The initiator may not apply to their
      own event; the event must exist, be PUBLISHED, have room, and the user
      must not hold any earlier request for it, whatever that request's status;
      the user must exist. The new request is CONFIRMED, and the ledger rises
      by one, exactly when the event auto-confirms; otherwise it is PENDING and
      the ledger is untouched. */
  function CreateRequest(db: Db, userId: int, eventId: int, freshId: int, now: Time): (r: Result<(Db, RequestDto)>)
    requires freshId !in db.requests
    ensures eventId in db.events && db.events[eventId].initiator == Some(userId)
            ==> r == Failure(InvalidParticipationRequest)
    ensures eventId !in db.events ==> r == Failure(NotFound)
    ensures eventId in db.events && db.events[eventId].initiator != Some(userId) &&
            (|| LimitReached(db.events[eventId])
             || db.events[eventId].state != EventState.Published
             || RequestsOf(db.requests, userId, eventId) != {})
            ==> r == Failure(InvalidParticipationRequest)
    ensures eventId in db.events && db.events[eventId].initiator != Some(userId) &&
            !LimitReached(db.events[eventId]) && db.events[eventId].state == EventState.Published &&
            RequestsOf(db.requests, userId, eventId) == {} && userId !in db.users
            ==> r == Failure(NotFound)
    ensures userId !in db.users ==> r.Failure?
    ensures r.Success? <==>
              && eventId in db.events
              && db.events[eventId].initiator != Some(userId)
              && !LimitReached(db.events[eventId])
              && db.events[eventId].state == EventState.Published
              && RequestsOf(db.requests, userId, eventId) == {}
              && userId in db.users
    ensures r.Success? ==>
              var e, db', d := db.events[eventId], r.value.0, r.value.1;
              && (d.status == Confirmed <==> AutoConfirms(e))
              && (d.status == RequestStatus.Pending <==> !AutoConfirms(e))
              && eventId in db'.events
              && db'.events[eventId].confirmedRequests
                 == e.confirmedRequests + (if d.status == Confirmed then 1 else 0)
              && db'.events == db.events[eventId := e.(confirmedRequests := db'.events[eventId].confirmedRequests)]
              && db'.requests == db.requests[freshId := Request(Some(freshId), userId, eventId, now, d.status)]
              && db' == db.(events := db'.events, requests := db'.requests)
              && d == ToRequestDto(db'.requests[freshId])
  {
    if eventId in db.events && db.events[eventId].initiator == Some(userId) then
      Failure(InvalidParticipationRequest)
    else if eventId !in db.events then
      Failure(NotFound)
    else
      var e := db.events[eventId];
      if LimitReached(e) || e.state != EventState.Published || RequestsOf(db.requests, userId, eventId) != {} then
        Failure(InvalidParticipationRequest)
      else if userId !in db.users then
        Failure(NotFound)
      else
        var status := if AutoConfirms(e) then Confirmed else RequestStatus.Pending;
        var e' := if AutoConfirms(e) then e.(confirmedRequests := e.confirmedRequests + 1) else e;
        var input := RequestDto(None, None, None, None, status);
        var saved := ToRequest(input, userId, eventId, now).(id := Some(freshId));
        var db' := db.(events := db.events[eventId := e'], requests := db.requests[freshId := saved]);
        Success((db', ToRequestDto(saved)))
  }

  // ---------------------------------------------------------------------
  // cancelRequest
  // ---------------------------------------------------------------------

  /** `cancelRequest(userId, requestId)`. Fails when the request is unknown or
      when the user has no request at all; it does NOT check that the request
      is the user's own. The request becomes CANCELED whatever its status, and
      no event ledger is touched. */
  function CancelRequest(db: Db, userId: int, requestId: int): (r: Result<(Db, RequestDto)>)
    ensures requestId !in db.requests ==> r == Failure(NotFound)
    ensures !HasAnyRequest(db.requests, userId) ==> r == Failure(NotFound)
    ensures r.Success? <==> requestId in db.requests && HasAnyRequest(db.requests, userId)
    ensures r.Success? ==>
              var db', d := r.value.0, r.value.1;
              && db'.requests == db.requests[requestId := db.requests[requestId].(status := RequestStatus.Canceled)]
              && db' == db.(requests := db'.requests)
              && d.status == RequestStatus.Canceled
              && d == ToRequestDto(db'.requests[requestId])
  {
    if requestId !in db.requests then
      Failure(NotFound)
    else if !HasAnyRequest(db.requests, userId) then
      Failure(NotFound)
    else
      var canceled := db.requests[requestId].(status := RequestStatus.Canceled);
      Success((db.(requests := db.requests[requestId := canceled]), ToRequestDto(canceled)))
  }

  // ---------------------------------------------------------------------
  // updateEventRequests
  // ---------------------------------------------------------------------

  /** What `findAllById` hands back: distinct ids of stored requests, in the
      order the store supplies them. */
  predicate Fetched(reqs: map<int, Request>, order: seq<int>) {
    Distinct(order) && forall i :: 0 <= i < |order| ==> order[i] in reqs
  }

  /** The first loop of the bulk update: the fetched requests that are
      PENDING, in fetch order. */
  function PendingOf(reqs: map<int, Request>, ids: seq<int>): (r: seq<int>)
    requires forall i :: 0 <= i < |ids| ==> ids[i] in reqs
    ensures forall x :: x in r <==> x in ids && reqs[x].status == RequestStatus.Pending
    ensures forall i :: 0 <= i < |r| ==> r[i] in reqs && reqs[r[i]].status == RequestStatus.Pending
    ensures Distinct(ids) ==> Distinct(r)
    ensures |r| <= |ids|
  {
    if |ids| == 0 then []
    else if reqs[ids[0]].status == RequestStatus.Pending then [ids[0]] + PendingOf(reqs, ids[1..])
    else PendingOf(reqs, ids[1..])
  }

  /** The status the bulk update gives the pending request at position `i`
      of the batch, when `room` confirmations are left before the limit and
      `cut` says whether the cutover has already happened. Cut-over requests
      become CANCELED. */
  function BatchOutcome(i: int, target: RequestStatus, auto: bool, room: int, cut: bool): RequestStatus {
    if cut then RequestStatus.Canceled
    else if target != Confirmed then Rejected
    else if auto || i < room then Confirmed
    else RequestStatus.Canceled
  }

  /** How many of `n` pending requests the bulk update confirms. */
  function Admitted(n: nat, target: RequestStatus, auto: bool, room: int, cut: bool): int {
    if cut || target != Confirmed then 0
    else if auto || n <= room then n
    else room
  }

  /** Fetched requests that went from PENDING in `before` to CONFIRMED in `after`. */
  function NewlyConfirmed(before: map<int, Request>, after: map<int, Request>, ids: seq<int>): nat
    requires forall i :: 0 <= i < |ids| ==> ids[i] in before && ids[i] in after
  {
    if |ids| == 0 then 0
    else
      (if before[ids[0]].status == RequestStatus.Pending && after[ids[0]].status == Confirmed then 1 else 0)
      + NewlyConfirmed(before, after, ids[1..])
  }

  /** `NewlyConfirmed` reads `before` only through the statuses at `ids`. */
  lemma {:induction false} NewlyConfirmedFrame(b1: map<int, Request>, b2: map<int, Request>, a: map<int, Request>, ids: seq<int>)
    requires forall i :: 0 <= i < |ids| ==> ids[i] in b1 && ids[i] in b2 && ids[i] in a && b1[ids[i]].status == b2[ids[i]].status
    ensures NewlyConfirmed(b1, a, ids) == NewlyConfirmed(b2, a, ids)
  {
    if |ids| > 0 {
      NewlyConfirmedFrame(b1, b2, a, ids[1..]);
    }
  }

  /** Requests that were not pending contribute nothing, so counting over the
      fetched ids or over the pending ones gives the same number. */
  lemma {:induction false} NewlyConfirmedPending(before: map<int, Request>, after: map<int, Request>, ids: seq<int>)
    requires forall i :: 0 <= i < |ids| ==> ids[i] in before && ids[i] in after
    ensures NewlyConfirmed(before, after, ids) == NewlyConfirmed(before, after, PendingOf(before, ids))
  {
    if |ids| > 0 {
      NewlyConfirmedPending(before, after, ids[1..]);
      var rest := PendingOf(before, ids[1..]);
      if before[ids[0]].status == RequestStatus.Pending {
        assert ([ids[0]] + rest)[1..] == rest;
      }
    }
  }

  /** The running state of the second loop. */
  datatype Batch = Batch(reqs: map<int, Request>, count: nat, cut: bool)

  /** The second loop of the bulk update, one pending request at a time.
      After the cutover every remaining request becomes CANCELED; before it,
      a CONFIRMED target confirms the request and advances the ledger, and
      when the event does not auto-confirm the cutover starts as soon as the
      ledger reaches the limit; any other target rejects the request. */
  function ApplyBatch(reqs: map<int, Request>, ids: seq<int>, target: RequestStatus,
                      auto: bool, limit: nat, count: nat, cut: bool): (r: Batch)
    requires forall i :: 0 <= i < |ids| ==> ids[i] in reqs && reqs[ids[i]].status == RequestStatus.Pending
    requires Distinct(ids)
    requires !auto && !cut ==> count < limit
    ensures r.reqs.Keys == reqs.Keys
    ensures forall k :: k in reqs && k !in ids ==> r.reqs[k] == reqs[k]
    ensures forall i :: 0 <= i < |ids| ==>
              ids[i] in r.reqs
              && r.reqs[ids[i]] == reqs[ids[i]].(status := BatchOutcome(i, target, auto, limit - count, cut))
    ensures r.count == count + Admitted(|ids|, target, auto, limit - count, cut)
    ensures r.count == count + NewlyConfirmed(reqs, r.reqs, ids)
    decreases |ids|
  {
    if |ids| == 0 then Batch(reqs, count, cut)
    else
      var id := ids[0];
      var status := if cut then RequestStatus.Canceled else if target == Confirmed then Confirmed else Rejected;
      var count' := if status == Confirmed then count + 1 else count;
      var cut' := cut || (status == Confirmed && !auto && limit <= count');
      var reqs' := reqs[id := reqs[id].(status := status)];
      assert forall j :: 1 <= j < |ids| ==> ids[j] != id;
      var r := ApplyBatch(reqs', ids[1..], target, auto, limit, count', cut');
      assert r.reqs[id] == reqs'[id];
      assert forall i :: 1 <= i < |ids| ==> ids[1..][i - 1] == ids[i];
      var room, room' := limit - count, limit - count';
      assert forall i: int :: 1 <= i ==>
        BatchOutcome(i - 1, target, auto, room', cut') == BatchOutcome(i, target, auto, room, cut);
      NewlyConfirmedFrame(reqs', reqs, r.reqs, ids[1..]);
      r
  }

  /** The result of a bulk update: every request of the event that is now
      CONFIRMED, and every one that is now REJECTED. */
  datatype UpdateResult = UpdateResult(confirmed: set<RequestDto>, rejected: set<RequestDto>)

  /** A full re-read: the DTOs of all of the event's requests with `status`. */
  function WithStatus(reqs: map<int, Request>, eventId: int, status: RequestStatus): (r: set<RequestDto>)
    ensures forall d :: d in r ==> d.status == status && d.event == Some(eventId)
    ensures forall k :: k in reqs && reqs[k].event == eventId && reqs[k].status == status ==> ToRequestDto(reqs[k]) in r
    ensures forall d :: d in r ==>
              exists k :: k in reqs && reqs[k].event == eventId && reqs[k].status == status && d == ToRequestDto(reqs[k])
  {
    set k | k in reqs && reqs[k].event == eventId && reqs[k].status == status :: ToRequestDto(reqs[k])
  }

  /** The ledger an event starts a bulk update with must leave room when
      the event is limited; otherwise the update is refused up front. */
  predicate CanUpdate(db: Db, eventId: int, order: seq<int>) {
    eventId in db.events && !LimitReached(db.events[eventId]) && Fetched(db.requests, order)
  }

  /** The store after a bulk update that passed the up-front checks: the
      pending fetched requests settled by `ApplyBatch`, and the event's ledger
      advanced by the confirmations it made. */
  function Settle(db: Db, eventId: int, order: seq<int>, target: RequestStatus): (db': Db)
    requires CanUpdate(db, eventId, order)
    // nothing outside the event's ledger and the fetched pending requests changes
    ensures db' == db.(events := db'.events, requests := db'.requests)
    ensures var e := db.events[eventId];
            && eventId in db'.events
            && db'.events == db.events[eventId := e.(confirmedRequests := db'.events[eventId].confirmedRequests)]
    ensures db'.requests.Keys == db.requests.Keys
    ensures forall k :: k in db.requests && k !in PendingOf(db.requests, order) ==> db'.requests[k] == db.requests[k]
    // the cutover: the i-th pending request, in fetch order
    ensures var e, P := db.events[eventId], PendingOf(db.requests, order);
            forall i :: 0 <= i < |P| ==>
              db'.requests[P[i]]
              == db.requests[P[i]].(status := BatchOutcome(i, target, AutoConfirms(e), e.participantLimit - e.confirmedRequests, false))
    // the ledger rises by exactly the number of newly confirmed requests
    ensures db'.events[eventId].confirmedRequests
            == db.events[eventId].confirmedRequests + NewlyConfirmed(db.requests, db'.requests, order)
    ensures var e := db.events[eventId];
            db'.events[eventId].confirmedRequests
            == e.confirmedRequests + Admitted(|PendingOf(db.requests, order)|, target, AutoConfirms(e),
                                              e.participantLimit - e.confirmedRequests, false)
  {
    var e := db.events[eventId];
    var pending := PendingOf(db.requests, order);
    var b := ApplyBatch(db.requests, pending, target, AutoConfirms(e), e.participantLimit, e.confirmedRequests, false);
    NewlyConfirmedPending(db.requests, b.reqs, order);
    db.(events := db.events[eventId := e.(confirmedRequests := b.count)], requests := b.reqs)
  }

  /** `updateEventRequests(userId, eventId, {requestIds, status})`. `fetched`
      is what the store returned for the request's id list, or `None` when
      the list itself is null; `target` is the requested status, `None` when
      null. The caller is not checked against the event's initiator, and the
      fetched requests are not checked to belong to the event. Checks run in
      this order: the event, its limit, the id list; a null target is only
      dereferenced once the loop reaches a pending request. The answer is a
      full re-read of the event's CONFIRMED and REJECTED requests afterwards. */
  function UpdateEventRequests(db: Db, userId: int, eventId: int, fetched: Option<seq<int>>,
                               target: Option<RequestStatus>): (r: Result<(Db, UpdateResult)>)
    requires fetched.Some? ==> Fetched(db.requests, fetched.value)
    ensures eventId !in db.events ==> r == Failure(NotFound)
    ensures eventId in db.events && LimitReached(db.events[eventId]) ==> r == Failure(InvalidEventStateOrDate)
    ensures eventId in db.events && !LimitReached(db.events[eventId]) && fetched.None? ==>
              r == Failure(NullArgument)
    ensures eventId in db.events && !LimitReached(db.events[eventId]) && fetched.Some? && target.None? &&
            PendingOf(db.requests, fetched.value) != [] ==>
              r == Failure(NullDereference)
    ensures r.Success? <==>
              && eventId in db.events && !LimitReached(db.events[eventId]) && fetched.Some?
              && (target.Some? || PendingOf(db.requests, fetched.value) == [])
    ensures r.Success? && target.Some? ==> r.value.0 == Settle(db, eventId, fetched.value, target.value)
    ensures r.Success? && target.None? ==> r.value.0 == db
    ensures r.Success? ==>
              && r.value.1.confirmed == WithStatus(r.value.0.requests, eventId, Confirmed)
              && r.value.1.rejected == WithStatus(r.value.0.requests, eventId, Rejected)
  {
    if eventId !in db.events then
      Failure(NotFound)
    else if LimitReached(db.events[eventId]) then
      Failure(InvalidEventStateOrDate)
    else if fetched.None? then
      Failure(NullArgument)
    else if target.None? && PendingOf(db.requests, fetched.value) != [] then
      Failure(NullDereference)
    else
      var db' := if target.None? then db else Settle(db, eventId, fetched.value, target.value);
      Success((db', UpdateResult(WithStatus(db'.requests, eventId, Confirmed), WithStatus(db'.requests, eventId, Rejected))))
  }
}
